=== FILE: README.md ===
# B+ engine core: bindless residency, view caching and render-state tracking

A Dafny model of three pieces of sequential logic in the B+ engine:

1. **Bindless handle residency and view caching** (`Engine/Renderer/Textures/Texture.cpp`).
   `TexHandle` and `ImgHandle` carry an `activeCount`; `Activate` and `Deactivate`
   ask the driver to make the handle resident on the 0 -> 1 edge and non-resident on
   the 1 -> 0 edge. Destructors drain the count, move constructors hand that duty
   over through `skipDestructor`, `TexView`/`ImgView` activate on construction and
   deactivate on destruction, and `Texture::GetViewFull` memoises handles by key.
   The calls that change driver state (residency, sampler deletion, texture
   deletion) are events in a driver trace (`GlTrace.Event`), which a small model of
   the driver's resident-handle set (`GlTrace.ResidentAfter`) interprets. The calls
   that only return a new name (`glGetTextureHandleARB`,
   `glGetTextureSamplerHandleARB`, `glCreateSamplers`, `glGetImageHandleARB`) are
   not events: the names they return are parameters.
2. **The render-state cache of `Context`** (`Engine/Renderer/Context.h`). The tracked
   state is a record (`RenderStates.RenderState`); every setter is one case of the
   `Setting` union, dispatched by `Apply`, which issues the driver call only when the
   requested value differs from the cached one. The driver is modelled by the same
   record, changed by the calls it executes (`Execute`, `Replay`).
3. **Small helpers of the application class** (`Engine/App.cpp`): `TrySDL`, the
   minimum-window-size clamp on resize, and the `ConfigFile` TOML round trip over an
   abstract key -> value document.

Modules: `Wrappers` (Option, Result), `Ints` (fixed-width integers and C++ casts),
`GlTrace`, `Handles`, `Textures`, `RenderStates`, `AppHelpers`, `Config`.

Handles live in the texture's two maps; a view names its handle by its map key
(`Textures.HandleRef`), so two views share a handle exactly when their keys are
equal. The driver's fresh object names (new bindless handles, new sampler objects),
SDL's error text, whether a file opens and what the TOML parser returned are
parameters.

Facts about the code that shape the model:

- `~Texture` deletes the texture object in its body (Texture.cpp:188-189), and the
  handle caches are destroyed afterwards, as members. So `DeleteTexture` comes
  before the handles' "non-resident" calls (`Textures.DestroyTexture`).
- The `Texture` move constructor (Texture.cpp:192-198) does not list the handle
  caches in its initialiser list. The target starts with empty caches and the
  source keeps its handles (`Textures.MoveTexture`).
- The image-view `GetViewFull` (Texture.cpp:220-230) does not compile as written:
  it looks up an undeclared `sampler` in `imgHandles`, inserts into `texHandles`
  and has an unbalanced parenthesis. `Textures.GetImgView` models its evident
  intent only, a find-or-insert into `imgHandles` keyed by
  `(MipLevel, SingleLayer, Access)` from line 224; it is not a property of the code.
- An image key's mip level is stored unchanged in the handle made for it (`Handles.NewImgHandle`).

## Model

| member | source | states |
|---|---|---|
| Handles.NewTexHandle | Engine/Renderer/Textures/Texture.cpp:15-41 | a new texture handle starts with no users and not moved-from, and owns a sampler object exactly when it was made for a custom sampler (null otherwise) |
| Handles.NewImgHandle | Engine/Renderer/Textures/Texture.cpp:19-31 | a new image handle starts with no users and not moved-from, and remembers the mip level, layer and access it was made for |
| Handles.Activate | Engine/Renderer/Textures/Texture.cpp:82-93 | the count grows by exactly one and nothing else about the handle changes; the driver gets one "make resident" call, exactly when the count was 0 |
| Handles.Deactivate | Engine/Renderer/Textures/Texture.cpp:95-112 | fails with the asserted double-release exactly when the count is 0; otherwise the count drops by one and one "make non-resident" call is issued exactly when it reaches 0 |
| Handles.Drain | Engine/Renderer/Textures/Texture.cpp:48-51 | the destructor's deactivation loop ends at count 0 and issues at most one "non-resident" call, only if the handle was active |
| Handles.DrainLoop | Engine/Renderer/Textures/Texture.cpp:50-51 | the literal `while (activeCount > 0) Deactivate()` loop computes exactly the drained handle and trace |
| Handles.Destroy | Engine/Renderer/Textures/Texture.cpp:43-66 | with `skipDestructor` nothing happens; otherwise the count ends at 0 with at most one "non-resident" call, then the sampler is deleted exactly when the handle is a texture handle with a non-null sampler |
| Handles.Move | Engine/Renderer/Textures/Texture.cpp:68-80 | destruction is handed over: destroying the moved-from source changes nothing and issues no call, destroying the target does exactly what destroying the source would have done, and the target is the same driver handle with the same count |
| Handles.MoveChainDestroysOnce | Engine/Renderer/Textures/Texture.cpp:68-80 | moving a handle on twice and destroying both moved-from shells and the final owner issues exactly the calls of destroying the original once |
| Handles.RunActivations | Engine/Renderer/Textures/Texture.cpp:82-93 | n activations add n to the count and reach the driver only on the 0 -> 1 edge |
| Handles.RunDeactivations | Engine/Renderer/Textures/Texture.cpp:95-112 | n deactivations of a handle with at least n users subtract n and reach the driver only on the 1 -> 0 edge |
| Handles.BalancedUseTogglesResidencyOnce | Engine/Renderer/Textures/Texture.cpp:82-112 | from count 0, n >= 1 activations then n deactivations end at count 0 with exactly one "resident" call followed by exactly one "non-resident" call |
| Handles.RunKeepsResidencyInSync | Engine/Renderer/Textures/Texture.cpp:82-112 | if the driver holds the handle resident exactly while it is active, that stays true after any successful sequence of calls, and no other handle's residency changes |
| Handles.RunFailsIffOverReleased | Engine/Renderer/Textures/Texture.cpp:95-107 | a sequence of calls hits the double-release assertion exactly when some prefix deactivates more often than the handle had users |
| Textures.NewView | Engine/Renderer/Textures/Texture.cpp:118-122 | constructing a view activates its handle once and touches no other cached handle |
| Textures.DestroyView | Engine/Renderer/Textures/Texture.cpp:123-126 | destroying a view deactivates its handle once (failing on a double release) and touches no other cached handle |
| Textures.AssignView | Engine/Renderer/Textures/Texture.cpp:127-164 | on the same handle: no count changes, and it fails exactly when the handle values differ; on different handles: it fails exactly on a double release, the view becomes the source view, each of the two handles changes only its count (one user fewer, and one more only under the activating copy-constructor assumption), and the calls are "non-resident" for the old handle exactly when it loses its last user, then "resident" for the new one exactly when it gains its first |
| Textures.ViewLifetimeRestoresCache | Engine/Renderer/Textures/Texture.cpp:118-126 | constructing then destroying a view restores the cache exactly, with a resident/non-resident pair only when the handle was inactive |
| Textures.GetTexView | Engine/Renderer/Textures/Texture.cpp:208-219 | the key is the custom sampler or the texture's own; afterwards the key is cached and no other entry changes; a cached handle is never replaced, only gains a user, and is made resident exactly when it had none; a new one gets its own sampler only for a custom sampler, starts with one user and is made resident |
| Textures.GetImgView | Engine/Renderer/Textures/Texture.cpp:220-230 | intent of the broken code: find-or-insert into the image-handle cache keyed by (mip level, single layer, access), with the same guarantees as the sampled case, including the calls on a cache hit |
| Textures.RepeatedRequestSharesHandle | Engine/Renderer/Textures/Texture.cpp:208-219 | two requests under equal keys give views of the same handle; the second creates nothing and issues no call |
| Textures.RepeatedImageRequestSharesHandle | Engine/Renderer/Textures/Texture.cpp:220-230 | the same for image views (intent) |
| Textures.DistinctKeysGetDistinctHandles | Engine/Renderer/Textures/Texture.cpp:208-219 | requests under different keys give views of different cache entries holding different driver handles |
| Textures.DistinctImageKeysGetDistinctHandles | Engine/Renderer/Textures/Texture.cpp:220-230 | the same for image views (intent): different image keys give different entries holding different driver handles |
| Textures.NewViewPreserves | Engine/Renderer/Textures/Texture.cpp:118-122 | view construction keeps the cache well formed and the driver's residency equal to "count > 0" for every cached handle |
| Textures.DestroyViewPreserves | Engine/Renderer/Textures/Texture.cpp:123-126 | view destruction keeps the cache well formed and residency in step with the counts |
| Textures.AssignViewPreserves | Engine/Renderer/Textures/Texture.cpp:127-140 | copy-assignment keeps the cache well formed and residency in step with the counts, under either copy-constructor assumption |
| Textures.GetTexViewPreserves | Engine/Renderer/Textures/Texture.cpp:208-219 | a sampled-view request keeps the cache well formed and residency in step with the counts, given a fresh driver handle |
| Textures.GetImgViewPreserves | Engine/Renderer/Textures/Texture.cpp:220-230 | the same for image-view requests (intent) |
| Textures.MoveTexture | Engine/Renderer/Textures/Texture.cpp:192-198 | the texture object goes to the target and the source's name is nulled; the target takes the texture's type, format, mip count and default sampler, and the source keeps them; the target starts with empty caches and the source keeps its handles; destroying the target and then the source issues exactly what destroying the unmoved texture would, in whatever order the caches are visited |
| Textures.DestroyAll | Engine/Renderer/Textures/Texture.cpp:43-66 | destroying a cache destroys each listed handle once, leaves the keys in place, and its calls are exactly those of destroying the listed handles one after the other |
| Textures.DestroyResidency | Engine/Renderer/Textures/Texture.cpp:43-66 | destroying one handle removes at most its own key from the resident set, and only if it was active and not moved-from |
| Textures.DestroyAllResidency | Engine/Renderer/Textures/Texture.cpp:43-66 | destroying a cache removes exactly the keys of its active handles from the resident set |
| Textures.DestroyTexture | Engine/Renderer/Textures/Texture.cpp:186-190 | the texture object is deleted first (if not moved away), then both caches are drained one after the other; every cached handle ends as destroying it alone would leave it, so only counts change, and nothing is made resident |
| Textures.DestroyTextureResidency | Engine/Renderer/Textures/Texture.cpp:186-190 | the resident set after destroying a texture is the one before minus the keys of its active handles |
| Textures.DestroyTextureLeavesNoUsers | Engine/Renderer/Textures/Texture.cpp:186-190 | after destroying a well-formed texture every handle it cached has count 0 |
| Textures.DestroyTextureDrainsResidency | Engine/Renderer/Textures/Texture.cpp:186-190 | after destroying a texture whose residency was in step, none of its handles is resident |
| Textures.DestroyTextureSparesOtherHandles | Engine/Renderer/Textures/Texture.cpp:186-190 | destroying a texture does not change the residency of any handle it does not own |
| Textures.MovedFromTextureKeepsObject | Engine/Renderer/Textures/Texture.cpp:186-198 | destroying a moved-from texture deletes no texture object but still drains the handles it kept |
| RenderStates.Apply | Engine/Renderer/Context.h:8-9 | a setter issues at most one call, none exactly when the request is already what the getters report; afterwards the request is in effect, an enabling scissor call leaves scissoring cached as on, and every field the setter does not govern is unchanged |
| RenderStates.InEffectIffNoChange | Engine/Renderer/Context.h:8-9 | a tracked request counts as a duplicate exactly when executing it would change no cached field |
| RenderStates.SetterIdempotent | Engine/Renderer/Context.h:8-9 | repeating a tracked setter with the same value issues no call and changes nothing |
| RenderStates.ScissorThenDisableReachesDriver | Engine/Renderer/Context.h:54-55 | once scissoring has been enabled through the context, a following request to disable it is never skipped and issues exactly the disabling call |
| RenderStates.RepeatedSettersAreSilent | Engine/Renderer/Context.h:8-9 | re-running a sequence of tracked setters that govern disjoint fields issues no call at all |
| RenderStates.CacheMatchesDriver | Engine/Renderer/Context.h:8-9 | starting from a driver in the cached state, executing only the calls the setters issued leaves the driver in exactly the state the cache holds |
| RenderStates.RefreshAfterSettersIsNoOp | Engine/Renderer/Context.h:35-37 | refreshing after setters made through the context finds nothing stale |
| RenderStates.ApplyAllFrame | Engine/Renderer/Context.h:137-146 | setters that do not govern a group of cached fields leave those fields unchanged |
| RenderStates.InEffectDependsOnWrites | Engine/Renderer/Context.h:137-146 | whether a request is a duplicate depends only on the fields that setter governs |
| RenderStates.GetBlending | Engine/Renderer/Context.h:74-78 | the combined blend state, when colour and alpha agree, splits back into exactly the cached colour and alpha states |
| RenderStates.UnifiedSettersReadBack | Engine/Renderer/Context.h:72-125 | `SetBlending`, `SetStencilTest`, `SetStencilResult` and `SetStencilMask` write both halves, so the unified getters are defined afterwards and return the value set |
| RenderStates.UnifiedEqualsBothFaces | Engine/Renderer/Context.h:93-100 | the unified stencil-test setter leaves the cache as the front-face then back-face setters would, with at most one call |
| RenderStates.SetViewportSize | Engine/Renderer/Context.h:51-52 | `SetViewport(width, height)` issues exactly the call of `SetViewport(0, 0, width, height)` and changes no cached field |
| AppHelpers.TrySdl | Engine/App.cpp:297-303 | succeeds exactly when the return code is 0; on failure reports exactly one message, the prefix, ": " and SDL's error text; on success reports nothing |
| AppHelpers.TrySdlPointer | Engine/App.cpp:304-309 | succeeds exactly for a non-null pointer; a null pointer is reported exactly once, as the prefix, ": " and SDL's error text, and a non-null one reports nothing |
| AppHelpers.PointerCheckIsCodeCheck | Engine/App.cpp:304-309 | the pointer check behaves exactly like the return-code check given a failing code for a null pointer and 0 otherwise |
| AppHelpers.TrySdlAll | Engine/App.cpp:135-145 | the short-circuit chain of checks succeeds exactly when every code is 0; it then reports nothing, and otherwise exactly one error |
| AppHelpers.TrySdlAllReportsFirstFailure | Engine/App.cpp:135-145 | the one error reported is that of the first failing call |
| AppHelpers.ResizeRequest | Engine/App.cpp:202-211 | a new size is requested exactly when a side is below the minimum (as signed 32-bit values), and it is the component-wise maximum of the size and the minimum |
| AppHelpers.ClampedSizeIsAccepted | Engine/App.cpp:202-211 | the size requested after clamping would not itself be clamped again |
| AppHelpers.DefaultMinimumClamp | Engine/App.h:69-70 | with the default minimum of 250 x 250, a request is made exactly when a side is below 250, for the component-wise maximum |
| Config.ToToml | Engine/App.cpp:73-81 | writes the maximised flag and a two-integer size array, and leaves every other key of the document alone |
| Config.FromToml | Engine/App.cpp:59-72 | the maximised flag is always assigned (false when absent); the size is kept when its key is absent and read, truncated to 32 bits, when well formed; a malformed size throws, after setting `x` when only the second element is bad and with the size untouched when the first is |
| Config.ToTomlFromTomlRoundTrip | Engine/App.cpp:59-81 | reading back a written document restores both settings exactly, whatever was there before |
| Config.WriteToFile | Engine/App.cpp:37-57 | does nothing when writing is disabled; otherwise writes a document holding exactly the maximised flag and the two-integer size, or reports the path it could not open |
| Config.LoadFromFile | Engine/App.cpp:16-36 | a parse error is reported with its reason and changes nothing; otherwise the only possible report is the unknown-error one, made exactly when the size key is present without two integers; the flag is true exactly when the document holds `true` under its key, the size is kept when absent or when its first element is not an integer, takes the new width with the old height when only the second is not, and is read in full when well formed |
| Config.WriteThenLoadRestores | Engine/App.cpp:16-81 | settings written to the file are restored, with no error, when the file is loaded again |
| Config.RecordWindowState | Engine/App.cpp:220-229 | after every polled event the maximised flag is recorded, and the size only when the window is not maximised, as the u32 bit pattern of each `int` side (unchanged for non-negative sides) |
| Config.RecordedStateSurvivesRestart | Engine/App.cpp:220-229 | a recorded window state, written and loaded back, yields the recorded flag and, when not maximised, the recorded sides |

## Left out

- The OpenGL, SDL, GLEW and ImGui calls themselves: the texture code's calls are trace events, the render-state calls are `Setting` values, and SDL results are parameters.
- `Sampler::Apply`, `AssertFormatIsAllowed`, `GetOglEnum`, `IsCompressed` and `RecomputeMips`: their definitions are not part of this model. For the same reason the `Texture` constructor (texture creation and format checks) is left out; a texture is any value of the `Texture` record.
- The arguments passed to `glGetImageHandleARB` and `glGetTextureSamplerHandleARB`: new driver handles and sampler objects are parameters of the view requests.
- Handles.Deactivate: models the debug build, in which the assertion stops a double release; `BPAssert` is defined outside this model; if it is compiled out in a release build, the count would underflow there, which is not modelled.
- Handles.NewTexHandle / NewImgHandle: the starting user count of 0, the moved-from flag of false and the null sampler of a handle without a custom sampler come from default member initialisers in `Texture.h`, which is not part of this model; they are assumed, like `CopyCtor` below.
- Textures.AssignView: the `TexView`/`ImgView` copy constructor is declared in `Texture.h`, which is not part of this model, so whether it activates is the explicit `CopyCtor` parameter rather than a fact.
- Textures.NewView: a view refers to one texture's handle cache; views of different textures are not modelled, and neither are views that outlive their texture; the engine does not detect this either.
- Textures.DestroyTexture: the order in which `std::map` visits its entries and the relative order of the two caches depend on `Sampler`'s ordering and on `Texture.h`; both are parameters, and the residency results hold for every order.
- Textures.GetImgView: models the evident intent of code that does not compile; it states nothing about the code as written.
- The `Context` singleton registry, constructor and destructor, `WasInitialized`, `GetOwner`, the `Clear` overloads and the version constants: they concern thread-local registration and window/driver set-up, not cached state.
- `SetVsyncMode` returns whether the driver accepted the mode; the model assumes it does. `SetScissor`'s rectangle and `SetViewport` are not cached, so they always reach the driver.
- The individual driver queries of `RefreshDriverState`: the refresh is modelled as adopting the state the driver reports (`RenderStates.Refresh`).
- `Context.cpp` is not part of this model: the setters are modelled from the class's promise that duplicate calls are ignored, and the getters and per-face setters from their declarations.
- The field types of `Helpers.h` (`FaceCullModes`, `ValueTests`, `StencilTest`, `StencilResult`, blend factors and operations, `VsyncModes`) are opaque types compared by value; blend states are taken to be (source, destination, operation, constant).
- Config.FromToml: `IO::TomlTryGet` (in `IO.h`, not part of this model) is taken to return the value when the key holds a boolean and the default otherwise; the TOML library's `get<int64_t>` is taken to throw unless the value is an array with an integer at that index.
- The virtual hooks `_FromToml`, `_ToToml` and `OnDeserialized`: the base class's versions do nothing, and derived configurations are outside the model.
- File reading and writing, including exceptions thrown while formatting the document: whether the file opens and what the parser returned are parameters.
- The frame-timing sleep and the fixed-step physics loop: floating-point arithmetic on wall-clock time.
- The `App` run/quit lifecycle: `OnQuit` sets `isRunning` to true while its documentation says false, so there is no coherent contract to state; the vsync fallback and GLEW initialisation are driver set-up.
- `AppTemplate/main.cpp`: an entry point whose calls do not match the signatures declared in `App.h` (it calls `ResetToDefaults`, which `App.h` does not declare).
- Concurrency: the engine is single-threaded per context, and the model is sequential.

=== FILE: app.dfy ===
/**
  The small pieces of logic in the application class: checking SDL
  results and keeping the main window above its minimum size.
*/
module AppHelpers {
  import opened Wrappers
  import opened Ints

  /** Whether an SDL call succeeded, and the messages passed to the error callback. */
  datatype Checked = Checked(ok: bool, reported: seq<string>)

  /**
    `App::TrySDL(int, msgPrefix)`: a non-zero SDL return code is an error,
    reported once with SDL's own error text (`sdlError`) after the prefix.
  */
  function TrySdl(returnCode: int, msgPrefix: string, sdlError: string): (r: Checked)
    ensures r.ok <==> returnCode == 0
    ensures r.ok ==> r.reported == []
    ensures !r.ok ==> |r.reported| == 1 && r.reported[0] == msgPrefix + ": " + sdlError
  {
    var reported := if returnCode != 0 then [msgPrefix + ": " + sdlError] else [];
    Checked(returnCode == 0, reported)
  }

  /**
    `App::TrySDL(void*, msgPrefix)`: succeeds exactly for a non-null
    pointer, and a null one is reported once, with SDL's error text.
  */
  function TrySdlPointer(ptr: nat, msgPrefix: string, sdlError: string): (r: Checked)
    ensures r.ok <==> ptr != 0
    ensures r.reported == if ptr == 0 then [msgPrefix + ": " + sdlError] else []
  {
    if ptr == 0 then TrySdl(-1, msgPrefix, sdlError) else Checked(true, [])
  }

  /**
    The pointer check is the return-code check in disguise: a null pointer
    behaves exactly like a failing code, a non-null one like success.
  */
  lemma PointerCheckIsCodeCheck(ptr: nat, failCode: int, msgPrefix: string, sdlError: string)
    requires failCode != 0
    ensures TrySdlPointer(ptr, msgPrefix, sdlError) == TrySdl(if ptr == 0 then failCode else 0, msgPrefix, sdlError)
  {
  }

  /**
    The initialisation sequence `!TrySDL(a) || !TrySDL(b) || ...`: checks
    run in order and stop at the first failure. `codes[i]` is the return
    code and message prefix of the i-th SDL call.
  */
  function TrySdlAll(codes: seq<(int, string)>, sdlError: string): (r: Checked)
    ensures r.ok <==> forall i :: 0 <= i < |codes| ==> codes[i].0 == 0
    ensures r.ok ==> r.reported == []
    ensures !r.ok ==> |r.reported| == 1
    decreases |codes|
  {
    if codes == [] then Checked(true, [])
    else
      var first := TrySdl(codes[0].0, codes[0].1, sdlError);
      if !first.ok then first
      else
        var rest := TrySdlAll(codes[1..], sdlError);
        assert forall i :: 1 <= i < |codes| ==> codes[i] == codes[1..][i - 1];
        rest
  }

  /** The failure reported by the sequence is the one of the first failing call. */
  lemma {:induction false} TrySdlAllReportsFirstFailure(codes: seq<(int, string)>, sdlError: string, k: nat)
    requires k < |codes| && codes[k].0 != 0
    requires forall i :: 0 <= i < k ==> codes[i].0 == 0
    ensures TrySdlAll(codes, sdlError).reported == [codes[k].1 + ": " + sdlError]
    decreases k
  {
    if k > 0 {
      TrySdlAllReportsFirstFailure(codes[1..], sdlError, k - 1);
    }
  }

  /** A width and height in window coordinates. */
  datatype Size = Size(w: i32, h: i32)

  /** `App::MinWindowSize`: the main window may never get smaller than this. */
  const MinWindowSize: (u32, u32) := (250, 250)

  function Max(a: int, b: int): int {
    if a >= b then a else b
  }

  /**
    The window-resize handler: when either new dimension is below the
    minimum (compared as signed 32-bit values), the window is asked to
    take the component-wise maximum of the new size and the minimum.
  */
  function ResizeRequest(resized: Size, minSize: (u32, u32)): (r: Option<Size>)
    ensures r.Some? <==> resized.w < ToI32(minSize.0) || resized.h < ToI32(minSize.1)
    ensures r.Some? ==> r.value.w >= resized.w && r.value.w >= ToI32(minSize.0)
                        && (r.value.w == resized.w || r.value.w == ToI32(minSize.0))
    ensures r.Some? ==> r.value.h >= resized.h && r.value.h >= ToI32(minSize.1)
                        && (r.value.h == resized.h || r.value.h == ToI32(minSize.1))
  {
    var minW := ToI32(minSize.0);
    var minH := ToI32(minSize.1);
    if resized.w < minW || resized.h < minH then
      Some(Size(Max(resized.w, minW), Max(resized.h, minH)))
    else None
  }

  /** The size the handler asks for is one it would accept: the clamp is a fixed point. */
  lemma ClampedSizeIsAccepted(resized: Size, minSize: (u32, u32))
    requires ResizeRequest(resized, minSize).Some?
    ensures ResizeRequest(ResizeRequest(resized, minSize).value, minSize) == None
  {
  }

  /** With the default minimum, a request is made exactly when a side is below 250 pixels. */
  lemma DefaultMinimumClamp(resized: Size)
    ensures var r := ResizeRequest(resized, MinWindowSize);
      && (r.Some? <==> resized.w < 250 || resized.h < 250)
      && (r.Some? ==> r.value == Size(Max(resized.w, 250), Max(resized.h, 250)))
  {
  }
}

=== FILE: config.dfy ===
/**
  `ConfigFile`: the window settings an app remembers between runs, written
  to and read from a TOML document. The document is modelled as a map
  from key to value; reading and writing the file itself is a parameter.
*/
module Config {
  import opened Wrappers
  import opened Ints

  /** The TOML values the configuration uses. */
  datatype TomlValue =
    | TBool(b: bool)
    | TInt(i: i64)
    | TString(s: string)
    | TArray(items: seq<TomlValue>)

  type Document = map<string, TomlValue>

  datatype WindowSize = WindowSize(x: u32, y: u32)

  datatype ConfigFile = ConfigFile(
    filePath: string,
    disableWrite: bool,
    isWindowMaximized: bool,
    lastWindowSize: WindowSize)

  const MaximizedKey: string := "IsWindowMaximized"
  const SizeKey: string := "LastWindowSize"

  /** Reads a boolean setting, falling back to `default` when it is missing or not a boolean. */
  function TomlTryGet(doc: Document, key: string, default: bool): (r: bool)
    ensures key !in doc ==> r == default
    ensures key in doc && doc[key].TBool? ==> r == doc[key].b
  {
    if key in doc && doc[key].TBool? then doc[key].b else default
  }

  /** `get<int64_t>(i)` on a TOML value: the i-th element of an array of integers, or an exception. */
  function ElementAsInt(v: TomlValue, i: nat): (r: Option<i64>)
    ensures r.Some? <==> v.TArray? && i < |v.items| && v.items[i].TInt?
    ensures r.Some? ==> r.value == v.items[i].i
  {
    if v.TArray? && i < |v.items| && v.items[i].TInt? then Some(v.items[i].i) else None
  }

  /** `ConfigFile::ToToml`: writes both settings into the document, leaving its other keys alone. */
  function ToToml(cfg: ConfigFile, doc: Document): (r: Document)
    ensures r.Keys == doc.Keys + {MaximizedKey, SizeKey}
    ensures r[MaximizedKey] == TBool(cfg.isWindowMaximized)
    ensures r[SizeKey] == TArray([TInt(cfg.lastWindowSize.x), TInt(cfg.lastWindowSize.y)])
    ensures forall k <- doc :: k != MaximizedKey && k != SizeKey ==> r[k] == doc[k]
  {
    var size := TArray([TInt(cfg.lastWindowSize.x as i64), TInt(cfg.lastWindowSize.y as i64)]);
    doc[MaximizedKey := TBool(cfg.isWindowMaximized)][SizeKey := size]
  }

  /** The configuration after reading, and whether reading stopped with an exception. */
  datatype Loaded = Loaded(config: ConfigFile, threw: bool)

  /**
    `ConfigFile::FromToml`. The maximised flag is always assigned (default
    false). The size is read only if the key exists, one coordinate after
    the other, each converted to 32 bits unsigned; a malformed size throws
    after the assignments made so far.
  */
  function FromToml(cfg: ConfigFile, doc: Document): (r: Loaded)
    ensures r.config.filePath == cfg.filePath && r.config.disableWrite == cfg.disableWrite
    ensures r.config.isWindowMaximized == TomlTryGet(doc, MaximizedKey, false)
    ensures SizeKey !in doc ==> !r.threw && r.config.lastWindowSize == cfg.lastWindowSize
    ensures SizeKey in doc ==>
      (r.threw <==> ElementAsInt(doc[SizeKey], 0).None? || ElementAsInt(doc[SizeKey], 1).None?)
    ensures SizeKey in doc && !r.threw ==>
      r.config.lastWindowSize == WindowSize(ToU32(doc[SizeKey].items[0].i), ToU32(doc[SizeKey].items[1].i))
    ensures SizeKey in doc && ElementAsInt(doc[SizeKey], 0).None? ==>
      r.config.lastWindowSize == cfg.lastWindowSize
    ensures SizeKey in doc && ElementAsInt(doc[SizeKey], 0).Some? && ElementAsInt(doc[SizeKey], 1).None? ==>
      r.config.lastWindowSize == WindowSize(ToU32(doc[SizeKey].items[0].i), cfg.lastWindowSize.y)
  {
    var c1 := cfg.(isWindowMaximized := TomlTryGet(doc, MaximizedKey, false));
    if SizeKey !in doc then Loaded(c1, false)
    else
      match ElementAsInt(doc[SizeKey], 0)
      case None => Loaded(c1, true)
      case Some(x) =>
        var c2 := c1.(lastWindowSize := c1.lastWindowSize.(x := ToU32(x)));
        match ElementAsInt(doc[SizeKey], 1)
        case None => Loaded(c2, true)
        case Some(y) => Loaded(c2.(lastWindowSize := c2.lastWindowSize.(y := ToU32(y))), false)
  }

  /**
    Round trip: reading back a document the configuration was written into
    restores both settings, whatever was in the document or the
    configuration before. The u32 -> int64 -> u32 conversion loses nothing.
  */
  lemma ToTomlFromTomlRoundTrip(cfg: ConfigFile, before: ConfigFile, doc: Document)
    requires cfg.filePath == before.filePath && cfg.disableWrite == before.disableWrite
    ensures FromToml(before, ToToml(cfg, doc)) == Loaded(cfg, false)
  {
  }

  /** What `WriteToFile` did. */
  datatype WriteOutcome = NotWritten | Written(doc: Document) | WriteFailed(message: string)

  /**
    `ConfigFile::WriteToFile`: nothing at all when writing is disabled;
    otherwise the settings are written into a fresh document, which goes
    to the file if it could be opened (`fileOpens`), and an error is
    reported if not.
  */
  function WriteToFile(cfg: ConfigFile, fileOpens: bool): (r: WriteOutcome)
    ensures cfg.disableWrite ==> r == NotWritten
    ensures !cfg.disableWrite && fileOpens ==>
      && r.Written? && r.doc.Keys == {MaximizedKey, SizeKey}
      && r.doc[MaximizedKey] == TBool(cfg.isWindowMaximized)
      && r.doc[SizeKey] == TArray([TInt(cfg.lastWindowSize.x), TInt(cfg.lastWindowSize.y)])
    ensures !cfg.disableWrite && !fileOpens ==>
      r == WriteFailed("Error opening config file to write: " + cfg.filePath)
  {
    if cfg.disableWrite then NotWritten
    else
      var doc := ToToml(cfg, map[]);
      if fileOpens then Written(doc)
      else WriteFailed("Error opening config file to write: " + cfg.filePath)
  }

  /**
    `ConfigFile::LoadFromFile`, given the outcome of parsing the file: a
    parse error is reported with its reason and changes nothing; an
    exception while reading the document is reported after the partial
    update it made.
  */
  function LoadFromFile(cfg: ConfigFile, parsed: Result<Document, string>): (r: (ConfigFile, seq<string>))
    ensures parsed.Fail? ==> r == (cfg, ["Error reading/parsing TOML config file: " + parsed.error])
    ensures r.0.filePath == cfg.filePath && r.0.disableWrite == cfg.disableWrite
    ensures |r.1| <= 1
    ensures parsed.Ok? ==>
      var doc := parsed.value;
      && (r.1 == [] <==> SizeKey !in doc || (ElementAsInt(doc[SizeKey], 0).Some? && ElementAsInt(doc[SizeKey], 1).Some?))
      && (r.1 != [] ==> r.1 == ["Unknown error loading TOML config file"])
      && r.0.isWindowMaximized == (MaximizedKey in doc && doc[MaximizedKey] == TBool(true))
      && (SizeKey !in doc ==> r.0.lastWindowSize == cfg.lastWindowSize)
      && (SizeKey in doc && ElementAsInt(doc[SizeKey], 0).None? ==> r.0.lastWindowSize == cfg.lastWindowSize)
      && (SizeKey in doc && ElementAsInt(doc[SizeKey], 0).Some? && ElementAsInt(doc[SizeKey], 1).None? ==>
            r.0.lastWindowSize == WindowSize(ToU32(doc[SizeKey].items[0].i), cfg.lastWindowSize.y))
      && (SizeKey in doc && r.1 == [] ==>
            r.0.lastWindowSize == WindowSize(ToU32(doc[SizeKey].items[0].i), ToU32(doc[SizeKey].items[1].i)))
  {
    match parsed
    case Fail(reason) => (cfg, ["Error reading/parsing TOML config file: " + reason])
    case Ok(doc) =>
      var loaded := FromToml(cfg, doc);
      (loaded.config, if loaded.threw then ["Unknown error loading TOML config file"] else [])
  }

  /** Settings written to the file are restored, without any error, when the file is loaded again. */
  lemma WriteThenLoadRestores(cfg: ConfigFile, later: ConfigFile)
    requires !cfg.disableWrite
    requires later.filePath == cfg.filePath && later.disableWrite == cfg.disableWrite
    ensures var w := WriteToFile(cfg, true);
      LoadFromFile(later, Ok(w.doc)) == (cfg, [])
  {
    ToTomlFromTomlRoundTrip(cfg, later, map[]);
  }

  /**
    After every polled event, whatever its type, the application records
    the window state: the maximised flag always, the size only when the
    window is not maximised, each side cast from `int` to u32.
  */
  function RecordWindowState(cfg: ConfigFile, maximized: bool, w: i32, h: i32): (r: ConfigFile)
    ensures r.isWindowMaximized == maximized
    ensures maximized ==> r.lastWindowSize == cfg.lastWindowSize
    ensures !maximized && w >= 0 && h >= 0 ==> r.lastWindowSize == WindowSize(w, h)
    ensures !maximized ==> ToI32(r.lastWindowSize.x) == w && ToI32(r.lastWindowSize.y) == h
    ensures r.filePath == cfg.filePath && r.disableWrite == cfg.disableWrite
  {
    var c := cfg.(isWindowMaximized := maximized);
    if !maximized then c.(lastWindowSize := WindowSize(ToU32(w), ToU32(h))) else c
  }

  /**
    The recorded window state survives a restart: after recording, writing
    the configuration and loading it back, the application finds the
    maximised flag it recorded and the window size it last saw while not
    maximised.
  */
  lemma RecordedStateSurvivesRestart(cfg: ConfigFile, maximized: bool, w: i32, h: i32, later: ConfigFile)
    requires !cfg.disableWrite
    requires later.filePath == cfg.filePath && later.disableWrite == cfg.disableWrite
    ensures var recorded := RecordWindowState(cfg, maximized, w, h);
      var loaded := LoadFromFile(later, Ok(WriteToFile(recorded, true).doc));
      && loaded.1 == []
      && loaded.0.isWindowMaximized == maximized
      && (maximized ==> loaded.0.lastWindowSize == cfg.lastWindowSize)
      && (!maximized ==> ToI32(loaded.0.lastWindowSize.x) == w && ToI32(loaded.0.lastWindowSize.y) == h)
  {
    WriteThenLoadRestores(RecordWindowState(cfg, maximized, w, h), later);
  }
}

=== FILE: gl_trace.dfy ===
/**
  The OpenGL driver calls the texture code makes, recorded as a trace of
  events, and a small model of the driver's residency bookkeeping that
  interprets such a trace.
*/
module GlTrace {

  /** A raw OpenGL object name or bindless handle; 0 is the null value. */
  type GlPtr = nat

  const NullPtr: GlPtr := 0

  /** Bindless handles come in two kinds with separate residency calls. */
  datatype HandleKind = TextureHandle | ImageHandle

  /** One driver call, in the order it is issued. */
  datatype Event =
    | MakeResident(kind: HandleKind, handle: GlPtr)
    | MakeNonResident(kind: HandleKind, handle: GlPtr)
    | DeleteSampler(sampler: GlPtr)
    | DeleteTexture(texture: GlPtr)

  /** A handle as the driver identifies it for residency purposes. */
  datatype ResidencyKey = ResidencyKey(kind: HandleKind, handle: GlPtr)

  /** The effect of one event on the set of resident handles. */
  function ResidentStep(resident: set<ResidencyKey>, e: Event): set<ResidencyKey> {
    match e
    case MakeResident(k, h) => resident + {ResidencyKey(k, h)}
    case MakeNonResident(k, h) => resident - {ResidencyKey(k, h)}
    case _ => resident
  }

  /** The set of resident handles after the driver has executed `trace`. */
  function ResidentAfter(resident: set<ResidencyKey>, trace: seq<Event>): set<ResidencyKey>
    decreases |trace|
  {
    if trace == [] then resident
    else ResidentAfter(ResidentStep(resident, trace[0]), trace[1..])
  }

  /** Executing two traces one after the other is executing their concatenation. */
  lemma {:induction false} ResidentAfterAppend(resident: set<ResidencyKey>, a: seq<Event>, b: seq<Event>)
    ensures ResidentAfter(resident, a + b) == ResidentAfter(ResidentAfter(resident, a), b)
    decreases |a|
  {
    if a == [] {
      assert a + b == b;
    } else {
      assert (a + b)[0] == a[0];
      assert (a + b)[1..] == a[1..] + b;
      ResidentAfterAppend(ResidentStep(resident, a[0]), a[1..], b);
    }
  }
}

=== FILE: handles.dfy ===
/**
  Bindless texture and image handles (`TexHandle`, `ImgHandle`): a driver
  handle plus a count of active users. The driver is asked to make the
  handle resident on the 0 -> 1 edge of the count and non-resident on the
  1 -> 0 edge. Every operation returns the new handle together with the
  driver calls it issued.
*/
module Handles {
  import opened Wrappers
  import opened GlTrace

  /** `ImageAccessModes`: the access an image view is created for. */
  datatype ImageAccess = ReadOnly | WriteOnly | ReadWrite

  /** The parameters an image handle is created from (`ImgHandleData`). */
  datatype ImgHandleData = ImgHandleData(mipLevel: nat, singleLayer: Option<nat>, access: ImageAccess)

  /**
    A texture handle owns an optional sampler object (`samplerPtr`, null
    when the texture's own sampling settings are used); an image handle
    remembers the parameters it was created from.
  */
  datatype Handle =
    | TexHandle(viewPtr: GlPtr, samplerPtr: GlPtr, activeCount: nat, skipDestructor: bool)
    | ImgHandle(viewPtr: GlPtr, data: ImgHandleData, activeCount: nat, skipDestructor: bool)
  {
    function Kind(): HandleKind {
      if TexHandle? then TextureHandle else ImageHandle
    }

    function Key(): ResidencyKey {
      ResidencyKey(Kind(), viewPtr)
    }

    /** Same handle, ignoring its count: what activation must never touch. */
    predicate SameBut(other: Handle) {
      other == this.(activeCount := other.activeCount)
    }
  }

  /** Programmer-contract violations the engine asserts against. */
  datatype Error =
    | DeactivatedTooOften   // "Deactivate() called too many times"
    | GlPtrMismatch         // "GlPtr fields don't match up in TexView"

  /** A new state together with the driver calls that produced it. */
  datatype Step<T> = Step(state: T, calls: seq<Event>)

  /**
    The `TexHandle` constructors: the handle starts inactive and owns a
    sampler object (`newSamplerPtr`) only when it was made for a custom
    sampler; otherwise it samples with the texture's own settings and its
    sampler is null.
  */
  function NewTexHandle(viewPtr: GlPtr, custom: bool, newSamplerPtr: GlPtr): (h: Handle)
    ensures h.TexHandle? && h.activeCount == 0 && !h.skipDestructor
    ensures h.viewPtr == viewPtr
    ensures !custom ==> h.samplerPtr == NullPtr
    ensures custom ==> h.samplerPtr == newSamplerPtr
  {
    TexHandle(viewPtr, if custom then newSamplerPtr else NullPtr, 0, false)
  }

  /** A freshly created image handle starts inactive and remembers its parameters. */
  function NewImgHandle(viewPtr: GlPtr, data: ImgHandleData): (h: Handle)
    ensures h.ImgHandle? && h.activeCount == 0 && !h.skipDestructor
    ensures h.viewPtr == viewPtr && h.data == data
  {
    ImgHandle(viewPtr, data, 0, false)
  }

  /** `Activate`: one more user; the driver hears about the first one only. */
  function Activate(h: Handle): (r: Step<Handle>)
    ensures r.state.activeCount == h.activeCount + 1 && h.SameBut(r.state)
    ensures |r.calls| <= 1
    ensures r.calls != [] <==> h.activeCount == 0
    ensures forall e <- r.calls :: e == MakeResident(h.Kind(), h.viewPtr)
  {
    var next := h.(activeCount := h.activeCount + 1);
    Step(next, if next.activeCount == 1 then [MakeResident(h.Kind(), h.viewPtr)] else [])
  }

  /**
    `Deactivate`: one user fewer; the driver hears about the last one only.
    Deactivating an inactive handle is the asserted double-release.
  */
  function Deactivate(h: Handle): (r: Result<Step<Handle>, Error>)
    ensures r.Fail? <==> h.activeCount == 0
    ensures r.Fail? ==> r.error == DeactivatedTooOften
    ensures r.Ok? ==> r.value.state.activeCount + 1 == h.activeCount && h.SameBut(r.value.state)
    ensures r.Ok? ==> |r.value.calls| <= 1
    ensures r.Ok? ==> (r.value.calls != [] <==> h.activeCount == 1)
    ensures r.Ok? ==> forall e <- r.value.calls :: e == MakeNonResident(h.Kind(), h.viewPtr)
  {
    if h.activeCount == 0 then Fail(DeactivatedTooOften)
    else
      var next := h.(activeCount := h.activeCount - 1);
      Ok(Step(next, if next.activeCount < 1 then [MakeNonResident(h.Kind(), h.viewPtr)] else []))
  }

  /**
    Repeated `Deactivate` until the count is 0, the loop at the head of both
    handle destructors. Only the last step reaches the driver.
  */
  function Drain(h: Handle): (r: Step<Handle>)
    ensures r.state == h.(activeCount := 0)
    ensures r.calls == if h.activeCount > 0 then [MakeNonResident(h.Kind(), h.viewPtr)] else []
    decreases h.activeCount
  {
    if h.activeCount == 0 then Step(h, [])
    else
      var d := Deactivate(h).value;
      var rest := Drain(d.state);
      Step(rest.state, d.calls + rest.calls)
  }

  /** The destructor's drain loop as the engine writes it: a `while` over `Deactivate`. */
  method DrainLoop(h: Handle) returns (r: Step<Handle>)
    ensures r == Drain(h)
  {
    var cur := h;
    var calls: seq<Event> := [];
    while cur.activeCount > 0
      invariant h.SameBut(cur) && cur.activeCount <= h.activeCount
      invariant calls == if h.activeCount > 0 && cur.activeCount == 0
                         then [MakeNonResident(h.Kind(), h.viewPtr)] else []
      decreases cur.activeCount
    {
      var d := Deactivate(cur);
      calls := calls + d.value.calls;
      cur := d.value.state;
    }
    r := Step(cur, calls);
  }

  /**
    `~TexHandle` / `~ImgHandle`: nothing when ownership was moved away;
    otherwise drain the count and then release the texture handle's own
    sampler object if it has one.
  */
  function Destroy(h: Handle): (r: Step<Handle>)
    ensures h.skipDestructor ==> r == Step(h, [])
    ensures !h.skipDestructor ==> r.state == h.(activeCount := 0)
    ensures !h.skipDestructor ==>
      r.calls == (if h.activeCount > 0 then [MakeNonResident(h.Kind(), h.viewPtr)] else [])
                 + (if h.TexHandle? && h.samplerPtr != NullPtr then [DeleteSampler(h.samplerPtr)] else [])
  {
    if h.skipDestructor then Step(h, [])
    else
      var drained := Drain(h);
      var release := if h.TexHandle? && h.samplerPtr != NullPtr then [DeleteSampler(h.samplerPtr)] else [];
      Step(drained.state, drained.calls + release)
  }

  /**
    The move constructors: the target takes every field of the source,
    and the source is marked so that its destructor does nothing.
    Returns (target, moved-from source). Destruction is handed over: the
    moved-from source is destroyed silently, and the target does what the
    source would have done.
  */
  function Move(src: Handle): (r: (Handle, Handle))
    ensures Destroy(r.1) == Step(r.1, [])
    ensures Destroy(r.0) == Destroy(src)
    ensures r.0.Key() == src.Key() && r.0.activeCount == src.activeCount
  {
    (src, src.(skipDestructor := true))
  }

  /**
    Moving a handle along a chain of owners never duplicates its clean-up:
    destroying every moved-from shell and the final owner issues exactly
    the calls destroying the original would.
  */
  lemma MoveChainDestroysOnce(h: Handle)
    ensures var first := Move(h);
      var second := Move(first.0);
      Destroy(first.1).calls + Destroy(second.1).calls + Destroy(second.0).calls == Destroy(h).calls
  {
  }

  /** A call made on a handle: `Activate` or `Deactivate`. */
  datatype Op = Act | Deact

  /** Applies calls in order, stopping at the first failed assertion. */
  function Run(h: Handle, ops: seq<Op>): Result<Step<Handle>, Error>
    decreases |ops|
  {
    if ops == [] then Ok(Step(h, []))
    else
      match Call(h, ops[0])
      case Fail(e) => Fail(e)
      case Ok(s) => Then(s, Run(s.state, ops[1..]))
  }

  function Call(h: Handle, op: Op): Result<Step<Handle>, Error> {
    if op == Act then Ok(Activate(h)) else Deactivate(h)
  }

  /** Prefixes the calls of a first step to the outcome of the steps that follow it. */
  function Then(first: Step<Handle>, rest: Result<Step<Handle>, Error>): Result<Step<Handle>, Error> {
    match rest
    case Fail(e) => Fail(e)
    case Ok(r) => Ok(Step(r.state, first.calls + r.calls))
  }

  function Repeat(op: Op, n: nat): (ops: seq<Op>)
    ensures |ops| == n && forall o <- ops :: o == op
  {
    if n == 0 then [] else [op] + Repeat(op, n - 1)
  }

  /** Running two call sequences one after the other is running their concatenation. */
  lemma {:induction false} RunAppend(h: Handle, a: seq<Op>, b: seq<Op>)
    requires Run(h, a).Ok?
    ensures Run(h, a + b) == Then(Run(h, a).value, Run(Run(h, a).value.state, b))
    decreases |a|
  {
    if a == [] {
      assert a + b == b;
      assert Run(h, a) == Ok(Step(h, []));
      ThenEmpty(h, Run(h, b));
    } else {
      assert (a + b)[0] == a[0];
      assert (a + b)[1..] == a[1..] + b;
      var s := Call(h, a[0]).value;
      var r1 := Run(s.state, a[1..]).value;
      RunAppend(s.state, a[1..], b);
      assert Run(h, a) == Then(s, Ok(r1));
      assert Run(h, a + b) == Then(s, Run(s.state, a[1..] + b));
      ThenAssoc(s, r1, Run(r1.state, b));
    }
  }

  lemma ThenEmpty(h: Handle, rest: Result<Step<Handle>, Error>)
    ensures Then(Step(h, []), rest) == rest
  {
    match rest
    case Fail(_) =>
    case Ok(r) => assert [] + r.calls == r.calls;
  }

  lemma ThenAssoc(s: Step<Handle>, r1: Step<Handle>, rest: Result<Step<Handle>, Error>)
    ensures Then(s, Then(r1, rest)) == Then(Then(s, Ok(r1)).value, rest)
  {
    match rest
    case Fail(_) =>
    case Ok(r2) => assert s.calls + (r1.calls + r2.calls) == (s.calls + r1.calls) + r2.calls;
  }

  /** `n` activations add `n` to the count and reach the driver only on the 0 -> 1 edge. */
  lemma {:induction false} RunActivations(h: Handle, n: nat)
    ensures Run(h, Repeat(Act, n)) ==
      Ok(Step(h.(activeCount := h.activeCount + n),
              if h.activeCount == 0 && n > 0 then [MakeResident(h.Kind(), h.viewPtr)] else []))
    decreases n
  {
    if n > 0 {
      var ops := Repeat(Act, n);
      assert ops[0] == Act && ops[1..] == Repeat(Act, n - 1);
      var s := Activate(h);
      RunActivations(s.state, n - 1);
      assert Run(h, ops) == Then(s, Run(s.state, ops[1..]));
      assert s.state.(activeCount := s.state.activeCount + (n - 1)) == h.(activeCount := h.activeCount + n);
      assert s.calls + [] == s.calls;
    }
  }

  /** `n` deactivations of a handle with at least `n` users reach the driver only on the 1 -> 0 edge. */
  lemma {:induction false} RunDeactivations(h: Handle, n: nat)
    requires n <= h.activeCount
    ensures Run(h, Repeat(Deact, n)) ==
      Ok(Step(h.(activeCount := h.activeCount - n),
              if n > 0 && n == h.activeCount then [MakeNonResident(h.Kind(), h.viewPtr)] else []))
    decreases n
  {
    if n > 0 {
      var ops := Repeat(Deact, n);
      assert ops[0] == Deact && ops[1..] == Repeat(Deact, n - 1);
      var s := Deactivate(h).value;
      RunDeactivations(s.state, n - 1);
      assert Run(h, ops) == Then(s, Run(s.state, ops[1..]));
      assert s.state.(activeCount := s.state.activeCount - (n - 1)) == h.(activeCount := h.activeCount - n);
      assert s.state.Kind() == h.Kind() && s.state.viewPtr == h.viewPtr;
      if n == 1 {
        assert Run(s.state, ops[1..]) == Ok(Step(s.state, []));
        assert s.calls + [] == s.calls;
      } else {
        assert s == Step(s.state, []);
        ThenEmpty(s.state, Run(s.state, ops[1..]));
      }
    }
  }

  /**
    From an inactive handle, `n >= 1` activations followed by `n`
    deactivations end inactive, with exactly one "resident" call followed
    by exactly one "non-resident" call.
  */
  lemma BalancedUseTogglesResidencyOnce(h: Handle, n: nat)
    requires h.activeCount == 0 && n >= 1
    ensures Run(h, Repeat(Act, n) + Repeat(Deact, n)) ==
      Ok(Step(h, [MakeResident(h.Kind(), h.viewPtr), MakeNonResident(h.Kind(), h.viewPtr)]))
  {
    var acts, deacts := Repeat(Act, n), Repeat(Deact, n);
    var up, down := MakeResident(h.Kind(), h.viewPtr), MakeNonResident(h.Kind(), h.viewPtr);
    var mid := h.(activeCount := n);
    assert mid.(activeCount := 0) == h && mid.Kind() == h.Kind() && mid.viewPtr == h.viewPtr;
    RunActivations(h, n);
    assert Run(h, acts) == Ok(Step(mid, [up]));
    RunDeactivations(mid, n);
    assert Run(mid, deacts) == Ok(Step(h, [down]));
    RunAppend(h, acts, deacts);
    assert Then(Step(mid, [up]), Ok(Step(h, [down]))) == Ok(Step(h, [up] + [down]));
    assert [up] + [down] == [up, down];
  }

  /**
    Residency mirrors the count: if the driver holds the handle resident
    exactly when it is active, that stays true after any sequence of calls
    that does not fail, and no other handle's residency changes.
  */
  lemma {:induction false} RunKeepsResidencyInSync(h: Handle, ops: seq<Op>, resident: set<ResidencyKey>)
    requires h.Key() in resident <==> h.activeCount > 0
    requires Run(h, ops).Ok?
    ensures var s := Run(h, ops).value;
      ResidentAfter(resident, s.calls) ==
        if s.state.activeCount > 0 then resident + {h.Key()} else resident - {h.Key()}
    decreases |ops|
  {
    if ops != [] {
      var s := Call(h, ops[0]).value;
      var resident' := ResidentAfter(resident, s.calls);
      assert s.state.Key() == h.Key();
      if s.calls == [] {
        assert resident' == resident;
      } else {
        assert s.calls == [s.calls[0]] && s.calls[1..] == [];
        assert resident' == ResidentAfter(ResidentStep(resident, s.calls[0]), []);
      }
      RunKeepsResidencyInSync(s.state, ops[1..], resident');
      ResidentAfterAppend(resident, s.calls, Run(s.state, ops[1..]).value.calls);
    }
  }

  /** `Run` fails exactly when some prefix deactivates more often than the handle had users. */
  lemma {:induction false} RunFailsIffOverReleased(h: Handle, ops: seq<Op>)
    ensures Run(h, ops).Fail? <==>
      exists i :: 0 <= i <= |ops| && h.activeCount + Count(ops[..i], Act) < Count(ops[..i], Deact)
    decreases |ops|
  {
    if ops == [] {
      assert forall i :: 0 <= i <= |ops| ==> ops[..i] == [];
    } else {
      var first := Call(h, ops[0]);
      if first.Fail? {
        assert ops[..1] == [ops[0]];
        assert h.activeCount + Count(ops[..1], Act) < Count(ops[..1], Deact);
      } else {
        var s := first.value.state;
        RunFailsIffOverReleased(s, ops[1..]);
        forall i | 1 <= i <= |ops|
          ensures h.activeCount + Count(ops[..i], Act) - Count(ops[..i], Deact)
                  == s.activeCount + Count(ops[1..][..i-1], Act) - Count(ops[1..][..i-1], Deact)
        {
          assert ops[..i] == [ops[0]] + ops[1..][..i-1];
          CountConcat([ops[0]], ops[1..][..i-1], Act);
          CountConcat([ops[0]], ops[1..][..i-1], Deact);
        }
        assert ops[..0] == [];
        if Run(h, ops).Fail? {
          var j :| 0 <= j <= |ops[1..]| && s.activeCount + Count(ops[1..][..j], Act) < Count(ops[1..][..j], Deact);
          assert 0 <= j + 1 <= |ops|;
          assert h.activeCount + Count(ops[..j+1], Act) < Count(ops[..j+1], Deact);
        } else {
          forall i | 0 <= i <= |ops|
            ensures h.activeCount + Count(ops[..i], Act) >= Count(ops[..i], Deact)
          {
            if i > 0 {
              assert 0 <= i - 1 <= |ops[1..]|;
            }
          }
        }
      }
    }
  }

  function Count(ops: seq<Op>, op: Op): nat {
    if ops == [] then 0 else (if ops[0] == op then 1 else 0) + Count(ops[1..], op)
  }

  lemma {:induction false} CountConcat(a: seq<Op>, b: seq<Op>, op: Op)
    ensures Count(a + b, op) == Count(a, op) + Count(b, op)
    decreases |a|
  {
    if a == [] {
      assert a + b == b;
    } else {
      assert (a + b)[0] == a[0];
      assert (a + b)[1..] == a[1..] + b;
      CountConcat(a[1..], b, op);
    }
  }
}

=== FILE: ints.dfy ===
/** Fixed-width integers of the engine, as ranges of unbounded integers. */
module Ints {
  const TWO_32: int := 0x1_0000_0000
  const TWO_31: int := 0x8000_0000

  type u32 = x: int | 0 <= x < TWO_32
  type i32 = x: int | -TWO_31 <= x < TWO_31
  type i64 = x: int | -0x8000_0000_0000_0000 <= x < 0x8000_0000_0000_0000

  /** A C++ conversion to a 32-bit unsigned integer keeps the value modulo 2^32. */
  function ToU32(x: int): (r: u32)
    ensures r == x <==> 0 <= x < TWO_32
    ensures (r - x) % TWO_32 == 0
  {
    x % TWO_32
  }

  /** A C++ conversion of a 32-bit unsigned value to a signed 32-bit `int` (two's complement). */
  function ToI32(x: u32): (r: i32)
    ensures r == x <==> x < TWO_31
    ensures r < 0 ==> r + TWO_32 == x
  {
    if x < TWO_31 then x else x - TWO_32
  }
}

=== FILE: render_state.dfy ===
/**
  The render-state cache of `Context`: the GPU state the engine tracks,
  one setter per tracked field (gathered into a single `Setting` union),
  and a driver-call trace. A setter reaches the driver only when the
  requested value differs from the cached one; the driver itself is
  modelled by the same record, changed by the calls it executes.
*/
module RenderStates {
  import opened Ints

  /** The enums and structs of the engine's GL helpers, compared by value. */
  type FaceCullMode(==)
  type ValueTest(==)
  type StencilTest(==)
  type StencilResult(==)
  type BlendFactor(==)
  type BlendOp(==)
  type VsyncMode(==)
  /** The constant colour and constant alpha of a blend state. */
  type Rgb(==)
  type Alpha(==)

  /** `glm::bvec4`: which colour channels may be written. */
  datatype Bool4 = Bool4(r: bool, g: bool, b: bool, a: bool)

  /** A blend state for some channels: `BlendStateRGB`, `BlendStateAlpha` or `BlendStateRGBA`. */
  datatype BlendState<C> = BlendState(src: BlendFactor, dst: BlendFactor, op: BlendOp, constant: C)

  datatype Rgba = Rgba(rgb: Rgb, alpha: Alpha)

  /** The colour half of a combined blend state. */
  function ColorPart(b: BlendState<Rgba>): BlendState<Rgb> {
    BlendState(b.src, b.dst, b.op, b.constant.rgb)
  }

  /** The alpha half of a combined blend state. */
  function AlphaPart(b: BlendState<Rgba>): BlendState<Alpha> {
    BlendState(b.src, b.dst, b.op, b.constant.alpha)
  }

  /** Every piece of GPU state the context remembers. */
  datatype RenderState = RenderState(
    scissorEnabled: bool,
    depthWrites: bool,
    colorWriteMask: Bool4,
    vsync: VsyncMode,
    cullMode: FaceCullMode,
    depthTest: ValueTest,
    colorBlending: BlendState<Rgb>,
    alphaBlending: BlendState<Alpha>,
    stencilTestFront: StencilTest,
    stencilTestBack: StencilTest,
    stencilResultFront: StencilResult,
    stencilResultBack: StencilResult,
    stencilMaskFront: u32,
    stencilMaskBack: u32)

  /** One setter call of the context, which is also the driver call it issues when it issues one. */
  datatype Setting =
    | Viewport(minX: int, minY: int, width: int, height: int)
    | Scissor(sMinX: int, sMinY: int, sWidth: int, sHeight: int)
    | NoScissor
    | Vsync(vsync: VsyncMode)
    | FaceCulling(cull: FaceCullMode)
    | DepthTest(depthTest: ValueTest)
    | DepthWrites(depthWrites: bool)
    | ColorWriteMask(colorMask: Bool4)
    | Blending(rgba: BlendState<Rgba>)
    | ColorBlending(rgb: BlendState<Rgb>)
    | AlphaBlending(alpha: BlendState<Alpha>)
    | StencilTestBoth(test: StencilTest)
    | StencilTestFront(test: StencilTest)
    | StencilTestBack(test: StencilTest)
    | StencilResultBoth(result: StencilResult)
    | StencilResultFront(result: StencilResult)
    | StencilResultBack(result: StencilResult)
    | StencilMaskBoth(mask: u32)
    | StencilMaskFront(mask: u32)
    | StencilMaskBack(mask: u32)

  /** The cached fields, by name. */
  datatype Field =
    | ScissorEnabledField | DepthWritesField | ColorMaskField | VsyncField | CullField | DepthTestField
    | ColorBlendField | AlphaBlendField
    | StencilTestFrontField | StencilTestBackField
    | StencilResultFrontField | StencilResultBackField
    | StencilMaskFrontField | StencilMaskBackField

  /** `a` and `b` hold the same value in field `f`. */
  predicate Agree(a: RenderState, b: RenderState, f: Field) {
    match f
    case ScissorEnabledField => a.scissorEnabled == b.scissorEnabled
    case DepthWritesField => a.depthWrites == b.depthWrites
    case ColorMaskField => a.colorWriteMask == b.colorWriteMask
    case VsyncField => a.vsync == b.vsync
    case CullField => a.cullMode == b.cullMode
    case DepthTestField => a.depthTest == b.depthTest
    case ColorBlendField => a.colorBlending == b.colorBlending
    case AlphaBlendField => a.alphaBlending == b.alphaBlending
    case StencilTestFrontField => a.stencilTestFront == b.stencilTestFront
    case StencilTestBackField => a.stencilTestBack == b.stencilTestBack
    case StencilResultFrontField => a.stencilResultFront == b.stencilResultFront
    case StencilResultBackField => a.stencilResultBack == b.stencilResultBack
    case StencilMaskFrontField => a.stencilMaskFront == b.stencilMaskFront
    case StencilMaskBackField => a.stencilMaskBack == b.stencilMaskBack
  }

  /** The cached fields each setter is responsible for. */
  function Writes(s: Setting): set<Field> {
    match s
    case Viewport(_, _, _, _) => {}
    case Scissor(_, _, _, _) => {ScissorEnabledField}
    case NoScissor => {ScissorEnabledField}
    case Vsync(_) => {VsyncField}
    case FaceCulling(_) => {CullField}
    case DepthTest(_) => {DepthTestField}
    case DepthWrites(_) => {DepthWritesField}
    case ColorWriteMask(_) => {ColorMaskField}
    case Blending(_) => {ColorBlendField, AlphaBlendField}
    case ColorBlending(_) => {ColorBlendField}
    case AlphaBlending(_) => {AlphaBlendField}
    case StencilTestBoth(_) => {StencilTestFrontField, StencilTestBackField}
    case StencilTestFront(_) => {StencilTestFrontField}
    case StencilTestBack(_) => {StencilTestBackField}
    case StencilResultBoth(_) => {StencilResultFrontField, StencilResultBackField}
    case StencilResultFront(_) => {StencilResultFrontField}
    case StencilResultBack(_) => {StencilResultBackField}
    case StencilMaskBoth(_) => {StencilMaskFrontField, StencilMaskBackField}
    case StencilMaskFront(_) => {StencilMaskFrontField}
    case StencilMaskBack(_) => {StencilMaskBackField}
  }

  // The getters. The unified ones assume both halves agree, as documented.

  function GetVsyncMode(c: RenderState): VsyncMode { c.vsync }
  function GetFaceCulling(c: RenderState): FaceCullMode { c.cullMode }
  function GetDepthTest(c: RenderState): ValueTest { c.depthTest }
  function GetDepthWrites(c: RenderState): bool { c.depthWrites }
  function GetColorWriteMask(c: RenderState): Bool4 { c.colorWriteMask }
  function GetColorBlending(c: RenderState): BlendState<Rgb> { c.colorBlending }
  function GetAlphaBlending(c: RenderState): BlendState<Alpha> { c.alphaBlending }
  function GetStencilTestFrontFaces(c: RenderState): StencilTest { c.stencilTestFront }
  function GetStencilTestBackFaces(c: RenderState): StencilTest { c.stencilTestBack }
  function GetStencilResultFrontFaces(c: RenderState): StencilResult { c.stencilResultFront }
  function GetStencilResultBackFaces(c: RenderState): StencilResult { c.stencilResultBack }
  function GetStencilMaskFrontFaces(c: RenderState): u32 { c.stencilMaskFront }
  function GetStencilMaskBackFaces(c: RenderState): u32 { c.stencilMaskBack }

  /** Colour and alpha blending share their factors and operation. */
  predicate BlendingAgrees(c: RenderState) {
    && c.colorBlending.src == c.alphaBlending.src
    && c.colorBlending.dst == c.alphaBlending.dst
    && c.colorBlending.op == c.alphaBlending.op
  }

  /** `GetBlending`: the combined blend state, assuming colour and alpha agree. */
  function GetBlending(c: RenderState): (b: BlendState<Rgba>)
    requires BlendingAgrees(c)
    ensures ColorPart(b) == c.colorBlending && AlphaPart(b) == c.alphaBlending
  {
    BlendState(c.colorBlending.src, c.colorBlending.dst, c.colorBlending.op,
               Rgba(c.colorBlending.constant, c.alphaBlending.constant))
  }

  /** `GetStencilTest`: the test of both faces, assuming they agree. */
  function GetStencilTest(c: RenderState): (t: StencilTest)
    requires c.stencilTestFront == c.stencilTestBack
    ensures t == GetStencilTestFrontFaces(c) && t == GetStencilTestBackFaces(c)
  {
    c.stencilTestFront
  }

  /** `GetStencilResult`: the write operations of both faces, assuming they agree. */
  function GetStencilResult(c: RenderState): (r: StencilResult)
    requires c.stencilResultFront == c.stencilResultBack
    ensures r == GetStencilResultFrontFaces(c) && r == GetStencilResultBackFaces(c)
  {
    c.stencilResultFront
  }

  /** `GetStencilMask`: the write mask of both faces, assuming they agree. */
  function GetStencilMask(c: RenderState): (m: u32)
    requires c.stencilMaskFront == c.stencilMaskBack
    ensures m == GetStencilMaskFrontFaces(c) && m == GetStencilMaskBackFaces(c)
  {
    c.stencilMaskFront
  }

  /** Viewport and scissor rectangles are not cached, so those calls always reach the driver. */
  predicate Tracked(s: Setting) {
    !s.Viewport? && !s.Scissor?
  }

  /** The requested value is what the getters already report: the call would be a duplicate. */
  predicate InEffect(c: RenderState, s: Setting) {
    match s
    case Viewport(_, _, _, _) => false
    case Scissor(_, _, _, _) => false
    case NoScissor => !c.scissorEnabled
    case Vsync(m) => GetVsyncMode(c) == m
    case FaceCulling(m) => GetFaceCulling(c) == m
    case DepthTest(t) => GetDepthTest(c) == t
    case DepthWrites(w) => GetDepthWrites(c) == w
    case ColorWriteMask(m) => GetColorWriteMask(c) == m
    case Blending(b) => BlendingAgrees(c) && GetBlending(c) == b
    case ColorBlending(b) => GetColorBlending(c) == b
    case AlphaBlending(b) => GetAlphaBlending(c) == b
    case StencilTestBoth(t) => c.stencilTestFront == c.stencilTestBack && GetStencilTest(c) == t
    case StencilTestFront(t) => GetStencilTestFrontFaces(c) == t
    case StencilTestBack(t) => GetStencilTestBackFaces(c) == t
    case StencilResultBoth(r) => c.stencilResultFront == c.stencilResultBack && GetStencilResult(c) == r
    case StencilResultFront(r) => GetStencilResultFrontFaces(c) == r
    case StencilResultBack(r) => GetStencilResultBackFaces(c) == r
    case StencilMaskBoth(m) => c.stencilMaskFront == c.stencilMaskBack && GetStencilMask(c) == m
    case StencilMaskFront(m) => GetStencilMaskFrontFaces(c) == m
    case StencilMaskBack(m) => GetStencilMaskBackFaces(c) == m
  }

  /** What the driver's state becomes when it executes a call. */
  function Execute(d: RenderState, s: Setting): RenderState {
    match s
    case Viewport(_, _, _, _) => d
    case Scissor(_, _, _, _) => d.(scissorEnabled := true)
    case NoScissor => d.(scissorEnabled := false)
    case Vsync(m) => d.(vsync := m)
    case FaceCulling(m) => d.(cullMode := m)
    case DepthTest(t) => d.(depthTest := t)
    case DepthWrites(w) => d.(depthWrites := w)
    case ColorWriteMask(m) => d.(colorWriteMask := m)
    case Blending(b) => d.(colorBlending := ColorPart(b), alphaBlending := AlphaPart(b))
    case ColorBlending(b) => d.(colorBlending := b)
    case AlphaBlending(b) => d.(alphaBlending := b)
    case StencilTestBoth(t) => d.(stencilTestFront := t, stencilTestBack := t)
    case StencilTestFront(t) => d.(stencilTestFront := t)
    case StencilTestBack(t) => d.(stencilTestBack := t)
    case StencilResultBoth(r) => d.(stencilResultFront := r, stencilResultBack := r)
    case StencilResultFront(r) => d.(stencilResultFront := r)
    case StencilResultBack(r) => d.(stencilResultBack := r)
    case StencilMaskBoth(m) => d.(stencilMaskFront := m, stencilMaskBack := m)
    case StencilMaskFront(m) => d.(stencilMaskFront := m)
    case StencilMaskBack(m) => d.(stencilMaskBack := m)
  }

  /**
    The two views of a duplicate call agree: a tracked request is already
    in effect exactly when executing it would change nothing.
  */
  lemma InEffectIffNoChange(c: RenderState, s: Setting)
    ensures InEffect(c, s) <==> Tracked(s) && Execute(c, s) == c
  {
    if s.Blending? && Execute(c, s) == c {
      var b := s.rgba;
      assert c.colorBlending == ColorPart(b) && c.alphaBlending == AlphaPart(b);
      assert GetBlending(c) == b;
    }
  }

  /** The cache after a setter, with the calls it issued. */
  datatype Applied = Applied(state: RenderState, calls: seq<Setting>)

  /**
    A setter of the context: a duplicate request is ignored; otherwise the
    one call is issued and the fields it governs are updated.
  */
  function Apply(c: RenderState, s: Setting): (r: Applied)
    ensures |r.calls| <= 1 && (r.calls != [] ==> r.calls == [s])
    ensures r.calls == [] <==> InEffect(c, s)
    ensures Tracked(s) ==> InEffect(r.state, s)
    ensures s.Scissor? ==> r.state.scissorEnabled
    ensures forall f :: f !in Writes(s) ==> Agree(c, r.state, f)
  {
    if InEffect(c, s) then Applied(c, [])
    else Applied(Execute(c, s), [s])
  }

  /** `SetViewport(width, height)`: the rectangle from the origin, issued unconditionally. */
  function SetViewportSize(c: RenderState, width: int, height: int): (r: Applied)
    ensures r.state == c
    ensures r.calls == [Viewport(0, 0, width, height)]
  {
    Apply(c, Viewport(0, 0, width, height))
  }

  /** Setters are idempotent: repeating a tracked setter issues nothing and changes nothing. */
  lemma SetterIdempotent(c: RenderState, s: Setting)
    requires Tracked(s)
    ensures Apply(Apply(c, s).state, s) == Applied(Apply(c, s).state, [])
  {
  }

  /** After the context enables scissoring, disabling it always reaches the driver. */
  lemma ScissorThenDisableReachesDriver(c: RenderState, x: int, y: int, w: int, h: int)
    ensures Apply(Apply(c, Scissor(x, y, w, h)).state, NoScissor).calls == [NoScissor]
  {
  }

  /**
    Unified setters write both faces (and both blend halves), so the
    unified getters read back exactly what was set.
  */
  lemma UnifiedSettersReadBack(c: RenderState, b: BlendState<Rgba>, t: StencilTest, res: StencilResult, m: u32)
    ensures var r := Apply(c, Blending(b)).state; BlendingAgrees(r) && GetBlending(r) == b
    ensures var r := Apply(c, StencilTestBoth(t)).state;
      r.stencilTestFront == r.stencilTestBack && GetStencilTest(r) == t
    ensures var r := Apply(c, StencilResultBoth(res)).state;
      r.stencilResultFront == r.stencilResultBack && GetStencilResult(r) == res
    ensures var r := Apply(c, StencilMaskBoth(m)).state;
      r.stencilMaskFront == r.stencilMaskBack && GetStencilMask(r) == m
  {
  }

  /**
    A unified stencil setter leaves the cache as the front-face and
    back-face setters would together, but with at most one call instead of
    up to two.
  */
  lemma UnifiedEqualsBothFaces(c: RenderState, t: StencilTest)
    ensures Apply(c, StencilTestBoth(t)).state ==
            Apply(Apply(c, StencilTestFront(t)).state, StencilTestBack(t)).state
    ensures |Apply(c, StencilTestBoth(t)).calls| <= 1
  {
  }

  /** Runs setters in call order, collecting the calls issued. */
  function ApplyAll(c: RenderState, ss: seq<Setting>): (r: Applied)
    ensures |r.calls| <= |ss|
    decreases |ss|
  {
    if ss == [] then Applied(c, [])
    else
      var first := Apply(c, ss[0]);
      var rest := ApplyAll(first.state, ss[1..]);
      Applied(rest.state, first.calls + rest.calls)
  }

  /** The driver's state after it has executed a trace of calls. */
  function Replay(d: RenderState, calls: seq<Setting>): RenderState
    decreases |calls|
  {
    if calls == [] then d else Replay(Execute(d, calls[0]), calls[1..])
  }

  lemma {:induction false} ReplayAppend(d: RenderState, a: seq<Setting>, b: seq<Setting>)
    ensures Replay(d, a + b) == Replay(Replay(d, a), b)
    decreases |a|
  {
    if a == [] {
      assert a + b == b;
    } else {
      assert (a + b)[0] == a[0] && (a + b)[1..] == a[1..] + b;
      ReplayAppend(Execute(d, a[0]), a[1..], b);
    }
  }

  /**
    The cache is faithful: when the driver starts in the cached state,
    executing only the calls the setters issued leaves it in the state the
    cache then holds, so skipped duplicates were never needed.
  */
  lemma {:induction false} CacheMatchesDriver(c: RenderState, ss: seq<Setting>)
    ensures Replay(c, ApplyAll(c, ss).calls) == ApplyAll(c, ss).state
    decreases |ss|
  {
    if ss != [] {
      var first := Apply(c, ss[0]);
      CacheMatchesDriver(first.state, ss[1..]);
      ReplayAppend(c, first.calls, ApplyAll(first.state, ss[1..]).calls);
      InEffectIffNoChange(c, ss[0]);
      if first.calls == [] {
        assert Replay(c, first.calls) == c;
      } else {
        assert first.calls[1..] == [];
        assert Replay(c, first.calls) == Replay(Execute(c, ss[0]), []);
      }
    }
  }

  /** `RefreshDriverState`: the cache is overwritten by what the driver reports. */
  function Refresh(cache: RenderState, driver: RenderState): (r: RenderState)
    ensures forall f :: Agree(r, driver, f)
  {
    driver
  }

  /**
    Refreshing after setters that went through the context finds nothing
    stale: the driver reports exactly the cached state.
  */
  lemma RefreshAfterSettersIsNoOp(c: RenderState, ss: seq<Setting>)
    ensures var r := ApplyAll(c, ss);
      Refresh(r.state, Replay(c, r.calls)) == r.state
  {
    CacheMatchesDriver(c, ss);
  }

  /**
    A second run of the same setters issues no call at all: every request
    is already in effect.
  */
  lemma {:induction false} RepeatedSettersAreSilent(c: RenderState, ss: seq<Setting>)
    requires forall s <- ss :: Tracked(s)
    requires forall i, j :: 0 <= i < j < |ss| ==> Writes(ss[i]) !! Writes(ss[j])
    ensures var r := ApplyAll(c, ss); ApplyAll(r.state, ss) == Applied(r.state, [])
    decreases |ss|
  {
    if ss != [] {
      var r := ApplyAll(c, ss);
      var first := Apply(c, ss[0]);
      var tail := ss[1..];
      assert forall i, j :: 0 <= i < j < |tail| ==> Writes(tail[i]) !! Writes(tail[j]) by {
        forall i, j | 0 <= i < j < |tail| ensures Writes(tail[i]) !! Writes(tail[j]) {
          assert tail[i] == ss[i + 1] && tail[j] == ss[j + 1];
        }
      }
      assert forall s <- tail :: Writes(ss[0]) !! Writes(s) by {
        forall s | s in tail ensures Writes(ss[0]) !! Writes(s) {
          var j :| 0 <= j < |tail| && tail[j] == s;
          assert s == ss[j + 1];
        }
      }
      ApplyAllFrame(first.state, tail, Writes(ss[0]));
      InEffectDependsOnWrites(first.state, r.state, ss[0]);
      assert Apply(r.state, ss[0]) == Applied(r.state, []);
      RepeatedSettersAreSilent(first.state, tail);
    }
  }

  /** Setters that do not govern a group of fields leave those fields alone. */
  lemma {:induction false} ApplyAllFrame(c: RenderState, ss: seq<Setting>, fs: set<Field>)
    requires forall s <- ss :: Writes(s) !! fs
    ensures forall f <- fs :: Agree(c, ApplyAll(c, ss).state, f)
    decreases |ss|
  {
    if ss != [] {
      var first := Apply(c, ss[0]);
      ApplyAllFrame(first.state, ss[1..], fs);
      forall f <- fs ensures Agree(c, ApplyAll(c, ss).state, f) {
        assert Agree(c, first.state, f);
        AgreeTransitive(c, first.state, ApplyAll(c, ss).state, f);
      }
    }
  }

  lemma AgreeTransitive(a: RenderState, b: RenderState, c: RenderState, f: Field)
    requires Agree(a, b, f) && Agree(b, c, f)
    ensures Agree(a, c, f)
  {
  }

  /** Whether a request is in effect depends only on the fields it governs. */
  lemma InEffectDependsOnWrites(a: RenderState, b: RenderState, s: Setting)
    requires forall f <- Writes(s) :: Agree(a, b, f)
    ensures InEffect(a, s) <==> InEffect(b, s)
  {
    match s
    case Blending(_) =>
      assert Agree(a, b, ColorBlendField) && Agree(a, b, AlphaBlendField);
    case StencilTestBoth(_) =>
      assert Agree(a, b, StencilTestFrontField) && Agree(a, b, StencilTestBackField);
    case StencilResultBoth(_) =>
      assert Agree(a, b, StencilResultFrontField) && Agree(a, b, StencilResultBackField);
    case StencilMaskBoth(_) =>
      assert Agree(a, b, StencilMaskFrontField) && Agree(a, b, StencilMaskBackField);
    case Viewport(_, _, _, _) =>
    case Scissor(_, _, _, _) =>
    case NoScissor => assert Agree(a, b, ScissorEnabledField);
    case Vsync(_) => assert Agree(a, b, VsyncField);
    case FaceCulling(_) => assert Agree(a, b, CullField);
    case DepthTest(_) => assert Agree(a, b, DepthTestField);
    case DepthWrites(_) => assert Agree(a, b, DepthWritesField);
    case ColorWriteMask(_) => assert Agree(a, b, ColorMaskField);
    case ColorBlending(_) => assert Agree(a, b, ColorBlendField);
    case AlphaBlending(_) => assert Agree(a, b, AlphaBlendField);
    case StencilTestFront(_) => assert Agree(a, b, StencilTestFrontField);
    case StencilTestBack(_) => assert Agree(a, b, StencilTestBackField);
    case StencilResultFront(_) => assert Agree(a, b, StencilResultFrontField);
    case StencilResultBack(_) => assert Agree(a, b, StencilResultBackField);
    case StencilMaskFront(_) => assert Agree(a, b, StencilMaskFrontField);
    case StencilMaskBack(_) => assert Agree(a, b, StencilMaskBackField);
  }
}

=== FILE: textures.dfy ===
/**
  A texture's cache of bindless handles and the views that keep them
  active. Handles live in two maps on the texture, keyed by sampler (for
  sampled views) and by image parameters (for image views); a view names
  its handle by that key, so two views share a handle exactly when their
  keys are equal.
*/
module Textures {
  import opened Wrappers
  import opened GlTrace
  import opened Handles

  /** `Sampler<3>`: sampling settings, compared by value. */
  type Sampler(==, !new)
  /** The texture's dimensionality (`Types`). */
  type TextureType(==, !new)
  /** The texture's pixel format (`Format`). */
  type Format(==, !new)

  datatype Texture = Texture(
    glPtr: GlPtr,
    kind: TextureType,
    format: Format,
    mipLevels: nat,
    sampler3D: Sampler,
    texHandles: map<Sampler, Handle>,
    imgHandles: map<ImgHandleData, Handle>)

  /** Which cached handle a view refers to. */
  datatype HandleRef = TexRef(sampler: Sampler) | ImgRef(data: ImgHandleData)

  /** `TexView` (a `TexRef`) or `ImgView` (an `ImgRef`), with the handle value it copied. */
  datatype View = View(ref: HandleRef, glPtr: GlPtr)

  /** A texture, a view into it, and the driver calls made to obtain them. */
  datatype Acquired = Acquired(texture: Texture, view: View, calls: seq<Event>)

  /**
    `TexView`'s copy constructor is declared in a header that is not part of
    this model, so whether it activates its handle is left open: every
    operation that copy-constructs a view takes this as a parameter.
  */
  datatype CopyCtor = CopyActivates | CopyIsMemberwise

  predicate Holds(t: Texture, ref: HandleRef) {
    match ref
    case TexRef(s) => s in t.texHandles
    case ImgRef(d) => d in t.imgHandles
  }

  function At(t: Texture, ref: HandleRef): Handle
    requires Holds(t, ref)
  {
    match ref
    case TexRef(s) => t.texHandles[s]
    case ImgRef(d) => t.imgHandles[d]
  }

  function Put(t: Texture, ref: HandleRef, h: Handle): Texture {
    match ref
    case TexRef(s) => t.(texHandles := t.texHandles[s := h])
    case ImgRef(d) => t.(imgHandles := t.imgHandles[d := h])
  }

  /** `t2` is `t` with at most the handles at `changed` replaced. */
  predicate SameExcept(t: Texture, t2: Texture, changed: set<HandleRef>) {
    && t2.(texHandles := t.texHandles, imgHandles := t.imgHandles) == t
    && t2.texHandles.Keys == t.texHandles.Keys
    && t2.imgHandles.Keys == t.imgHandles.Keys
    && (forall s <- t.texHandles :: TexRef(s) !in changed ==> t2.texHandles[s] == t.texHandles[s])
    && (forall d <- t.imgHandles :: ImgRef(d) !in changed ==> t2.imgHandles[d] == t.imgHandles[d])
  }

  /**
    The cache is well formed: texture handles under sampler keys, image
    handles under the parameters they were made from, none of them a
    moved-from shell, and no two of them the same driver handle.
  */
  ghost predicate WellFormed(t: Texture) {
    && (forall s <- t.texHandles :: t.texHandles[s].TexHandle? && !t.texHandles[s].skipDestructor)
    && (forall d <- t.imgHandles ::
          t.imgHandles[d].ImgHandle? && t.imgHandles[d].data == d && !t.imgHandles[d].skipDestructor)
    && (forall r1, r2 :: Holds(t, r1) && Holds(t, r2) && r1 != r2 ==> At(t, r1).viewPtr != At(t, r2).viewPtr)
  }

  /** The driver holds a cached handle resident exactly while it has users. */
  ghost predicate Consistent(t: Texture, resident: set<ResidencyKey>) {
    forall ref :: Holds(t, ref) ==> (At(t, ref).Key() in resident <==> At(t, ref).activeCount > 0)
  }

  /** The `TexView` / `ImgView` constructor: bind to a cached handle and activate it. */
  function NewView(t: Texture, ref: HandleRef): (r: Acquired)
    requires Holds(t, ref)
    ensures r.view == View(ref, At(t, ref).viewPtr)
    ensures Holds(r.texture, ref) && SameExcept(t, r.texture, {ref})
    ensures At(r.texture, ref).activeCount == At(t, ref).activeCount + 1
    ensures At(t, ref).SameBut(At(r.texture, ref))
    ensures r.calls == if At(t, ref).activeCount == 0 then [MakeResident(At(t, ref).Kind(), At(t, ref).viewPtr)] else []
  {
    var h := At(t, ref);
    var a := Activate(h);
    Acquired(Put(t, ref, a.state), View(ref, h.viewPtr), a.calls)
  }

  /** The view destructor: deactivate the handle it refers to. */
  function DestroyView(t: Texture, v: View): (r: Result<Step<Texture>, Error>)
    requires Holds(t, v.ref)
    ensures r.Fail? <==> At(t, v.ref).activeCount == 0
    ensures r.Ok? ==> Holds(r.value.state, v.ref) && SameExcept(t, r.value.state, {v.ref})
    ensures r.Ok? ==> At(r.value.state, v.ref).activeCount + 1 == At(t, v.ref).activeCount
    ensures r.Ok? ==> At(t, v.ref).SameBut(At(r.value.state, v.ref))
    ensures r.Ok? ==>
      var h := At(t, v.ref);
      r.value.calls == if h.activeCount == 1 then [MakeNonResident(h.Kind(), h.viewPtr)] else []
  {
    match Deactivate(At(t, v.ref))
    case Fail(e) => Fail(e)
    case Ok(d) => Ok(Step(Put(t, v.ref, d.state), d.calls))
  }

  /**
    The view copy-assignment operator. Between views of the same handle it
    only checks that they agree on the handle value. Otherwise it destroys
    the target view and copy-constructs it from the source view in place.
  */
  function AssignView(t: Texture, self: View, cpy: View, copy: CopyCtor): (r: Result<Acquired, Error>)
    requires Holds(t, self.ref) && Holds(t, cpy.ref)
    ensures self.ref == cpy.ref ==> (r.Fail? <==> self.glPtr != cpy.glPtr)
    ensures self.ref == cpy.ref && r.Ok? ==> r.value == Acquired(t, self, [])
    ensures self.ref != cpy.ref ==> (r.Fail? <==> At(t, self.ref).activeCount == 0)
    ensures self.ref != cpy.ref && r.Ok? ==>
      && r.value.view == cpy
      && Holds(r.value.texture, self.ref) && Holds(r.value.texture, cpy.ref)
      && SameExcept(t, r.value.texture, {self.ref, cpy.ref})
      && At(r.value.texture, self.ref).activeCount + 1 == At(t, self.ref).activeCount
      && At(r.value.texture, cpy.ref).activeCount ==
           At(t, cpy.ref).activeCount + (if copy == CopyActivates then 1 else 0)
      && At(t, self.ref).SameBut(At(r.value.texture, self.ref))
      && At(t, cpy.ref).SameBut(At(r.value.texture, cpy.ref))
    ensures self.ref != cpy.ref && r.Ok? ==>
      var old_ := At(t, self.ref);
      var new_ := At(t, cpy.ref);
      r.value.calls ==
        (if old_.activeCount == 1 then [MakeNonResident(old_.Kind(), old_.viewPtr)] else [])
        + (if copy == CopyActivates && new_.activeCount == 0 then [MakeResident(new_.Kind(), new_.viewPtr)] else [])
  {
    if self.ref != cpy.ref then
      match DestroyView(t, self)
      case Fail(e) => Fail(e)
      case Ok(d) =>
        if copy == CopyActivates then
          var a := Activate(At(d.state, cpy.ref));
          Ok(Acquired(Put(d.state, cpy.ref, a.state), cpy, d.calls + a.calls))
        else
          Ok(Acquired(d.state, cpy, d.calls))
    else if self.glPtr != cpy.glPtr then Fail(GlPtrMismatch)
    else Ok(Acquired(t, self, []))
  }

  /** The cache key a sampled view is requested under: the custom sampler, or the texture's own. */
  function SamplerKey(t: Texture, customSampler: Option<Sampler>): Sampler {
    customSampler.GetOr(t.sampler3D)
  }

  /**
    `Texture::GetViewFull` for sampled views. A handle is created only when
    none is cached under the key: with its own sampler object
    (`newSamplerPtr`) when a custom sampler was given, without one
    otherwise. It is moved into the cache and the moved-from temporary is
    destroyed. The driver names of new objects are parameters.
  */
  function GetTexView(t: Texture, customSampler: Option<Sampler>, newViewPtr: GlPtr, newSamplerPtr: GlPtr): (r: Acquired)
    ensures var key := SamplerKey(t, customSampler);
      && r.view.ref == TexRef(key)
      && r.texture.texHandles.Keys == t.texHandles.Keys + {key}
      && r.texture.(texHandles := t.texHandles) == t
      && (forall s <- t.texHandles :: s != key ==> r.texture.texHandles[s] == t.texHandles[s])
      && (key in t.texHandles ==>
            && r.texture.texHandles[key] == t.texHandles[key].(activeCount := t.texHandles[key].activeCount + 1)
            && r.view.glPtr == t.texHandles[key].viewPtr
            && r.calls == if t.texHandles[key].activeCount == 0
                          then [MakeResident(t.texHandles[key].Kind(), t.texHandles[key].viewPtr)] else [])
      && (key !in t.texHandles ==>
            && r.texture.texHandles[key] ==
                 TexHandle(newViewPtr, if customSampler.Some? then newSamplerPtr else NullPtr, 1, false)
            && r.view.glPtr == newViewPtr
            && r.calls == [MakeResident(TextureHandle, newViewPtr)])
  {
    var key := SamplerKey(t, customSampler);
    if key in t.texHandles then
      NewView(t, TexRef(key))
    else
      var created := NewTexHandle(newViewPtr, customSampler.Some?, newSamplerPtr);
      var (stored, temporary) := Move(created);
      var gone := Destroy(temporary);
      var a := NewView(t.(texHandles := t.texHandles[key := stored]), TexRef(key));
      Acquired(a.texture, a.view, gone.calls + a.calls)
  }

  /** The image-view key: mip level, optional single layer, access. */
  function ImageKey(access: ImageAccess, singleLayer: Option<nat>, mipLevel: nat): ImgHandleData {
    ImgHandleData(mipLevel, singleLayer, access)
  }

  /**
    `Texture::GetViewFull` for image views, as it is evidently meant to
    work: a find-or-insert into the image-handle cache keyed by the image
    parameters, then a view on the cached handle.
  */
  function GetImgView(t: Texture, access: ImageAccess, singleLayer: Option<nat>, mipLevel: nat, newViewPtr: GlPtr): (r: Acquired)
    ensures var key := ImageKey(access, singleLayer, mipLevel);
      && r.view.ref == ImgRef(key)
      && r.texture.imgHandles.Keys == t.imgHandles.Keys + {key}
      && r.texture.(imgHandles := t.imgHandles) == t
      && (forall d <- t.imgHandles :: d != key ==> r.texture.imgHandles[d] == t.imgHandles[d])
      && (key in t.imgHandles ==>
            && r.texture.imgHandles[key] == t.imgHandles[key].(activeCount := t.imgHandles[key].activeCount + 1)
            && r.view.glPtr == t.imgHandles[key].viewPtr
            && r.calls == if t.imgHandles[key].activeCount == 0
                          then [MakeResident(t.imgHandles[key].Kind(), t.imgHandles[key].viewPtr)] else [])
      && (key !in t.imgHandles ==>
            && r.texture.imgHandles[key] == ImgHandle(newViewPtr, key, 1, false)
            && r.view.glPtr == newViewPtr
            && r.calls == [MakeResident(ImageHandle, newViewPtr)])
  {
    var key := ImageKey(access, singleLayer, mipLevel);
    if key in t.imgHandles then
      NewView(t, ImgRef(key))
    else
      var (stored, temporary) := Move(NewImgHandle(newViewPtr, key));
      var gone := Destroy(temporary);
      var a := NewView(t.(imgHandles := t.imgHandles[key := stored]), ImgRef(key));
      Acquired(a.texture, a.view, gone.calls + a.calls)
  }

  /**
    The `Texture` move constructor: the target takes the texture object and
    its settings; the source's name is nulled. The handle caches are not in
    the constructor's initialiser list, so the target starts with empty
    caches and the source keeps its handles. Returns (target, source).
  */
  function MoveTexture(src: Texture): (r: (Texture, Texture))
    ensures r.0.glPtr == src.glPtr && r.1.glPtr == NullPtr
    ensures r.0.kind == src.kind && r.0.format == src.format
      && r.0.mipLevels == src.mipLevels && r.0.sampler3D == src.sampler3D
    ensures r.1.kind == src.kind && r.1.format == src.format
      && r.1.mipLevels == src.mipLevels && r.1.sampler3D == src.sampler3D
    ensures r.0.texHandles == map[] && r.0.imgHandles == map[]
    ensures r.1.texHandles == src.texHandles && r.1.imgHandles == src.imgHandles
    ensures forall texOrder, imgOrder, texFirst ::
      Enumerates(texOrder, src.texHandles.Keys) && Enumerates(imgOrder, src.imgHandles.Keys) ==>
        DestroyTexture(r.0, [], [], texFirst).calls + DestroyTexture(r.1, texOrder, imgOrder, texFirst).calls
          == DestroyTexture(src, texOrder, imgOrder, texFirst).calls
  {
    var target := src.(texHandles := map[], imgHandles := map[]);
    var source := src.(glPtr := NullPtr);
    assert forall texOrder, imgOrder, texFirst ::
      Enumerates(texOrder, src.texHandles.Keys) && Enumerates(imgOrder, src.imgHandles.Keys) ==>
        DestroyTexture(target, [], [], texFirst).calls + DestroyTexture(source, texOrder, imgOrder, texFirst).calls
          == DestroyTexture(src, texOrder, imgOrder, texFirst).calls
    by {
      forall texOrder, imgOrder, texFirst |
        Enumerates(texOrder, src.texHandles.Keys) && Enumerates(imgOrder, src.imgHandles.Keys)
      {
        SplitDestruction(src, texOrder, imgOrder, texFirst);
      }
    }
    (target, source)
  }

  /** The calls of destroying both caches, in the order the destructor visits them. */
  function CacheCalls(t: Texture, texOrder: seq<Sampler>, imgOrder: seq<ImgHandleData>, texFirst: bool): seq<Event>
    requires forall s <- texOrder :: s in t.texHandles
    requires forall d <- imgOrder :: d in t.imgHandles
  {
    if texFirst then DestroyCalls(t.texHandles, texOrder) + DestroyCalls(t.imgHandles, imgOrder)
    else DestroyCalls(t.imgHandles, imgOrder) + DestroyCalls(t.texHandles, texOrder)
  }

  /**
    Destroying a texture is destroying its object (with empty caches)
    and then its caches (with a null name).
  */
  lemma SplitDestruction(t: Texture, texOrder: seq<Sampler>, imgOrder: seq<ImgHandleData>, texFirst: bool)
    requires Enumerates(texOrder, t.texHandles.Keys) && Enumerates(imgOrder, t.imgHandles.Keys)
    ensures DestroyTexture(t.(texHandles := map[], imgHandles := map[]), [], [], texFirst).calls
          + DestroyTexture(t.(glPtr := NullPtr), texOrder, imgOrder, texFirst).calls
          == DestroyTexture(t, texOrder, imgOrder, texFirst).calls
  {
    var body := if t.glPtr != NullPtr then [DeleteTexture(t.glPtr)] else [];
    DestroyObjectOnly(t, texFirst);
    DestroyCachesOnly(t, texOrder, imgOrder, texFirst);
    assert DestroyTexture(t, texOrder, imgOrder, texFirst).calls == body + CacheCalls(t, texOrder, imgOrder, texFirst);
  }

  /** A texture with empty caches issues only the deletion of its object. */
  lemma DestroyObjectOnly(t: Texture, texFirst: bool)
    ensures var e := t.(texHandles := map[], imgHandles := map[]);
      Enumerates<Sampler>([], e.texHandles.Keys) && Enumerates<ImgHandleData>([], e.imgHandles.Keys)
      && DestroyTexture(e, [], [], texFirst).calls == if t.glPtr != NullPtr then [DeleteTexture(t.glPtr)] else []
  {
  }

  /** A texture with a null name issues only the calls of its caches. */
  lemma DestroyCachesOnly(t: Texture, texOrder: seq<Sampler>, imgOrder: seq<ImgHandleData>, texFirst: bool)
    requires Enumerates(texOrder, t.texHandles.Keys) && Enumerates(imgOrder, t.imgHandles.Keys)
    ensures DestroyTexture(t.(glPtr := NullPtr), texOrder, imgOrder, texFirst).calls
      == CacheCalls(t, texOrder, imgOrder, texFirst)
  {
  }

  /** `order` lists every key of `keys` exactly once. */
  ghost predicate Enumerates<K(!new)>(order: seq<K>, keys: set<K>) {
    && (forall k :: k in order <==> k in keys)
    && (forall i, j :: 0 <= i < j < |order| ==> order[i] != order[j])
  }

  /** The residency keys of the handles in `m` listed in `order` that a destructor will drain. */
  function ActiveKeys<K>(m: map<K, Handle>, order: seq<K>): set<ResidencyKey> {
    set k | k in order && k in m && m[k].activeCount > 0 && !m[k].skipDestructor :: m[k].Key()
  }

  /** The calls of destroying the handles of `m` listed in `order`, one after the other. */
  function DestroyCalls<K>(m: map<K, Handle>, order: seq<K>): seq<Event>
    requires forall k <- order :: k in m
    decreases |order|
  {
    if order == [] then [] else Destroy(m[order[0]]).calls + DestroyCalls(m, order[1..])
  }

  /** Replacing a handle that is not listed does not change the calls of destroying the listed ones. */
  lemma {:induction false} DestroyCallsFrame<K>(m: map<K, Handle>, order: seq<K>, k: K, h: Handle)
    requires forall k' <- order :: k' in m
    requires k !in order
    ensures DestroyCalls(m[k := h], order) == DestroyCalls(m, order)
    decreases |order|
  {
    if order != [] {
      assert order[0] != k;
      DestroyCallsFrame(m, order[1..], k, h);
    }
  }

  /**
    Destroys the handles of a cache, in the order its container visits
    them: each listed handle is destroyed once, and the calls are exactly
    those of destroying them one after the other.
  */
  function DestroyAll<K>(m: map<K, Handle>, order: seq<K>): (r: Step<map<K, Handle>>)
    requires forall k <- order :: k in m
    requires forall i, j :: 0 <= i < j < |order| ==> order[i] != order[j]
    ensures r.state.Keys == m.Keys
    ensures forall k <- order :: r.state[k] == Destroy(m[k]).state
    ensures forall k <- m :: k !in order ==> r.state[k] == m[k]
    ensures r.calls == DestroyCalls(m, order)
    ensures forall e <- r.calls :: !e.MakeResident? && !e.DeleteTexture?
    decreases |order|
  {
    if order == [] then Step(m, [])
    else
      var k := order[0];
      var d := Destroy(m[k]);
      var rest := DestroyAll(m[k := d.state], order[1..]);
      assert k !in order[1..] by {
        forall i | 0 <= i < |order[1..]| ensures order[1..][i] != k {
          assert order[1..][i] == order[i + 1];
        }
      }
      DestroyCallsFrame(m, order[1..], k, d.state);
      Step(rest.state, d.calls + rest.calls)
  }

  /** Destroying one handle removes at most its own key from the resident set. */
  lemma DestroyResidency(h: Handle, resident: set<ResidencyKey>)
    ensures ResidentAfter(resident, Destroy(h).calls) ==
      if h.activeCount > 0 && !h.skipDestructor then resident - {h.Key()} else resident
  {
    var calls := Destroy(h).calls;
    if !h.skipDestructor {
      var drained := if h.activeCount > 0 then [MakeNonResident(h.Kind(), h.viewPtr)] else [];
      var release := if h.TexHandle? && h.samplerPtr != NullPtr then [DeleteSampler(h.samplerPtr)] else [];
      assert calls == drained + release;
      ResidentAfterAppend(resident, drained, release);
      if drained != [] {
        assert drained[1..] == [];
        assert ResidentAfter(resident, drained) == ResidentAfter(resident - {h.Key()}, []);
      }
      if release != [] {
        assert release[1..] == [];
      }
    }
  }

  /** Destroying a cache removes exactly the keys of its active handles from the resident set. */
  lemma {:induction false} DestroyAllResidency<K>(m: map<K, Handle>, order: seq<K>, resident: set<ResidencyKey>)
    requires forall k <- order :: k in m
    ensures ResidentAfter(resident, DestroyCalls(m, order)) == resident - ActiveKeys(m, order)
    decreases |order|
  {
    if order == [] {
      assert ActiveKeys(m, order) == {};
    } else {
      var k := order[0];
      var tail := order[1..];
      var d := Destroy(m[k]).calls;
      DestroyResidency(m[k], resident);
      DestroyAllResidency(m, tail, ResidentAfter(resident, d));
      ResidentAfterAppend(resident, d, DestroyCalls(m, tail));
      var own: set<ResidencyKey> := if m[k].activeCount > 0 && !m[k].skipDestructor then {m[k].Key()} else {};
      assert ActiveKeys(m, order) == own + ActiveKeys(m, tail) by {
        forall x | x in ActiveKeys(m, order) ensures x in own + ActiveKeys(m, tail) {
          var k2 :| k2 in order && k2 in m && m[k2].activeCount > 0 && !m[k2].skipDestructor && m[k2].Key() == x;
          if k2 != k {
            assert k2 in tail;
          }
        }
      }
    }
  }

  /**
    `~Texture`: the destructor body deletes the texture object (unless it
    was moved away); the handle caches are destroyed after the body, as
    members, each in the order its container visits its entries. Which of
    the two caches goes first is fixed by the member declaration order in
    a header that is not part of this model, so it is the parameter
    `texFirst`.
  */
  function DestroyTexture(t: Texture, texOrder: seq<Sampler>, imgOrder: seq<ImgHandleData>, texFirst: bool): (r: Step<Texture>)
    requires Enumerates(texOrder, t.texHandles.Keys) && Enumerates(imgOrder, t.imgHandles.Keys)
    ensures t.glPtr != NullPtr ==> |r.calls| > 0 && r.calls[0] == DeleteTexture(t.glPtr)
    ensures t.glPtr == NullPtr ==> forall e <- r.calls :: !e.DeleteTexture?
    ensures forall e <- r.calls :: !e.MakeResident?
    ensures var body := if t.glPtr != NullPtr then [DeleteTexture(t.glPtr)] else [];
      var tex := DestroyCalls(t.texHandles, texOrder);
      var img := DestroyCalls(t.imgHandles, imgOrder);
      r.calls == body + (if texFirst then tex + img else img + tex)
    ensures r.state.(texHandles := t.texHandles, imgHandles := t.imgHandles) == t
    ensures r.state.texHandles.Keys == t.texHandles.Keys && r.state.imgHandles.Keys == t.imgHandles.Keys
    ensures forall s <- t.texHandles :: r.state.texHandles[s] == Destroy(t.texHandles[s]).state
    ensures forall d <- t.imgHandles :: r.state.imgHandles[d] == Destroy(t.imgHandles[d]).state
  {
    var body := if t.glPtr != NullPtr then [DeleteTexture(t.glPtr)] else [];
    var tex := DestroyAll(t.texHandles, texOrder);
    var img := DestroyAll(t.imgHandles, imgOrder);
    Step(t.(texHandles := tex.state, imgHandles := img.state),
         body + (if texFirst then tex.calls + img.calls else img.calls + tex.calls))
  }

  /** A view's lifetime is balanced: constructing then destroying it restores the cache. */
  lemma ViewLifetimeRestoresCache(t: Texture, ref: HandleRef)
    requires Holds(t, ref)
    ensures var a := NewView(t, ref);
      var d := DestroyView(a.texture, a.view);
      && d == Ok(Step(t, d.value.calls))
      && a.calls + d.value.calls ==
           if At(t, ref).activeCount == 0
           then [MakeResident(At(t, ref).Kind(), At(t, ref).viewPtr), MakeNonResident(At(t, ref).Kind(), At(t, ref).viewPtr)]
           else []
  {
    var a := NewView(t, ref);
    var d := DestroyView(a.texture, a.view);
    assert At(a.texture, ref) == At(t, ref).(activeCount := At(t, ref).activeCount + 1);
    assert Put(a.texture, ref, At(t, ref)) == t by {
      match ref
      case TexRef(s) => assert a.texture.texHandles[s := t.texHandles[s]] == t.texHandles;
      case ImgRef(dd) => assert a.texture.imgHandles[dd := t.imgHandles[dd]] == t.imgHandles;
    }
  }

  /**
    View cache identity: asking twice under equal keys yields views on the
    same handle; the second request creates nothing, reaches no driver call
    and only adds a user to the handle the first request left behind.
  */
  lemma RepeatedRequestSharesHandle(t: Texture, c1: Option<Sampler>, c2: Option<Sampler>,
                                    v1: GlPtr, s1: GlPtr, v2: GlPtr, s2: GlPtr)
    requires SamplerKey(t, c1) == SamplerKey(t, c2)
    ensures var first := GetTexView(t, c1, v1, s1);
      var second := GetTexView(first.texture, c2, v2, s2);
      var key := SamplerKey(t, c1);
      && second.view == first.view
      && second.calls == []
      && second.texture.texHandles.Keys == first.texture.texHandles.Keys
      && second.texture.texHandles[key] ==
           first.texture.texHandles[key].(activeCount := first.texture.texHandles[key].activeCount + 1)
  {
    var first := GetTexView(t, c1, v1, s1);
    assert first.texture.sampler3D == t.sampler3D;
  }

  /** The image-view cache behaves the same way under equal image parameters. */
  lemma RepeatedImageRequestSharesHandle(t: Texture, access: ImageAccess, layer: Option<nat>, mip: nat, v1: GlPtr, v2: GlPtr)
    ensures var first := GetImgView(t, access, layer, mip, v1);
      var second := GetImgView(first.texture, access, layer, mip, v2);
      var key := ImageKey(access, layer, mip);
      && second.view == first.view
      && second.calls == []
      && second.texture.imgHandles.Keys == first.texture.imgHandles.Keys
      && second.texture.imgHandles[key] ==
           first.texture.imgHandles[key].(activeCount := first.texture.imgHandles[key].activeCount + 1)
  {
  }

  /** No cached handle uses `viewPtr` yet: the driver issued it fresh. */
  ghost predicate Fresh(t: Texture, viewPtr: GlPtr) {
    forall ref :: Holds(t, ref) ==> At(t, ref).viewPtr != viewPtr
  }

  lemma AtPut(t: Texture, ref: HandleRef, h: Handle, other: HandleRef)
    requires Holds(t, other) || other == ref
    ensures Holds(Put(t, ref, h), other)
    ensures At(Put(t, ref, h), other) == if other == ref then h else At(t, other)
  {
  }

  /**
    Replacing a cached handle by one that differs only in its count keeps
    the cache well formed, and keeps it consistent with the driver when the
    driver's residency of that handle follows the new count.
  */
  lemma PutPreserves(t: Texture, ref: HandleRef, h: Handle, resident: set<ResidencyKey>, resident': set<ResidencyKey>)
    requires WellFormed(t) && Consistent(t, resident) && Holds(t, ref) && At(t, ref).SameBut(h)
    requires resident' == if h.activeCount > 0 then resident + {h.Key()} else resident - {h.Key()}
    ensures WellFormed(Put(t, ref, h)) && Consistent(Put(t, ref, h), resident')
  {
    var t' := Put(t, ref, h);
    forall other | Holds(t', other)
      ensures At(t', other).Key() in resident' <==> At(t', other).activeCount > 0
    {
      AtPut(t, ref, h, other);
      if other != ref {
        assert At(t, other).viewPtr != At(t, ref).viewPtr;
      }
    }
    forall r1, r2 | Holds(t', r1) && Holds(t', r2) && r1 != r2
      ensures At(t', r1).viewPtr != At(t', r2).viewPtr
    {
      AtPut(t, ref, h, r1);
      AtPut(t, ref, h, r2);
    }
  }

  lemma ActivateResidency(h: Handle, resident: set<ResidencyKey>)
    requires h.Key() in resident <==> h.activeCount > 0
    ensures ResidentAfter(resident, Activate(h).calls) == resident + {h.Key()}
  {
    var calls := Activate(h).calls;
    if calls != [] {
      assert calls == [MakeResident(h.Kind(), h.viewPtr)] && calls[1..] == [];
    }
  }

  lemma DeactivateResidency(h: Handle, resident: set<ResidencyKey>)
    requires h.Key() in resident <==> h.activeCount > 0
    requires h.activeCount > 0
    ensures var d := Deactivate(h).value;
      ResidentAfter(resident, d.calls) ==
        if d.state.activeCount > 0 then resident + {h.Key()} else resident - {h.Key()}
  {
    var calls := Deactivate(h).value.calls;
    if calls != [] {
      assert calls == [MakeNonResident(h.Kind(), h.viewPtr)] && calls[1..] == [];
    }
  }

  /** Constructing a view keeps the driver's residency in step with the counts. */
  lemma NewViewPreserves(t: Texture, ref: HandleRef, resident: set<ResidencyKey>)
    requires WellFormed(t) && Consistent(t, resident) && Holds(t, ref)
    ensures var a := NewView(t, ref);
      WellFormed(a.texture) && Consistent(a.texture, ResidentAfter(resident, a.calls))
  {
    var h := At(t, ref);
    ActivateResidency(h, resident);
    PutPreserves(t, ref, Activate(h).state, resident, ResidentAfter(resident, Activate(h).calls));
  }

  /** Destroying a view keeps the driver's residency in step with the counts. */
  lemma DestroyViewPreserves(t: Texture, v: View, resident: set<ResidencyKey>)
    requires WellFormed(t) && Consistent(t, resident) && Holds(t, v.ref)
    ensures var d := DestroyView(t, v);
      d.Ok? ==> WellFormed(d.value.state) && Consistent(d.value.state, ResidentAfter(resident, d.value.calls))
  {
    var h := At(t, v.ref);
    if h.activeCount > 0 {
      DeactivateResidency(h, resident);
      var d := Deactivate(h).value;
      PutPreserves(t, v.ref, d.state, resident, ResidentAfter(resident, d.calls));
    }
  }

  /** Copy-assigning a view keeps the driver's residency in step with the counts. */
  lemma AssignViewPreserves(t: Texture, self: View, cpy: View, copy: CopyCtor, resident: set<ResidencyKey>)
    requires WellFormed(t) && Consistent(t, resident) && Holds(t, self.ref) && Holds(t, cpy.ref)
    ensures var r := AssignView(t, self, cpy, copy);
      r.Ok? ==> WellFormed(r.value.texture) && Consistent(r.value.texture, ResidentAfter(resident, r.value.calls))
  {
    var r := AssignView(t, self, cpy, copy);
    if self.ref != cpy.ref && r.Ok? {
      DestroyViewPreserves(t, self, resident);
      var d := DestroyView(t, self).value;
      var mid := ResidentAfter(resident, d.calls);
      if copy == CopyActivates {
        NewViewPreserves(d.state, cpy.ref, mid);
        ResidentAfterAppend(resident, d.calls, NewView(d.state, cpy.ref).calls);
      }
    }
  }

  /**
    Requesting a sampled view keeps the cache well formed and consistent
    with the driver, provided the driver names a new handle freshly.
  */
  lemma GetTexViewPreserves(t: Texture, custom: Option<Sampler>, v: GlPtr, s: GlPtr, resident: set<ResidencyKey>)
    requires WellFormed(t) && Consistent(t, resident)
    requires Fresh(t, v) && ResidencyKey(TextureHandle, v) !in resident
    ensures var a := GetTexView(t, custom, v, s);
      WellFormed(a.texture) && Consistent(a.texture, ResidentAfter(resident, a.calls))
  {
    var key := SamplerKey(t, custom);
    if key in t.texHandles {
      NewViewPreserves(t, TexRef(key), resident);
    } else {
      var stored := NewTexHandle(v, custom.Some?, s);
      var t1 := t.(texHandles := t.texHandles[key := stored]);
      assert t1 == Put(t, TexRef(key), stored);
      forall other | Holds(t1, other)
        ensures At(t1, other) == if other == TexRef(key) then stored else At(t, other)
      {
        AtPut(t, TexRef(key), stored, other);
      }
      assert WellFormed(t1);
      assert Consistent(t1, resident);
      NewViewPreserves(t1, TexRef(key), resident);
      var gone := Destroy(Move(stored).1);
      assert gone.calls == [];
      assert gone.calls + NewView(t1, TexRef(key)).calls == NewView(t1, TexRef(key)).calls;
    }
  }

  /** The same for image views. */
  lemma GetImgViewPreserves(t: Texture, access: ImageAccess, layer: Option<nat>, mip: nat, v: GlPtr, resident: set<ResidencyKey>)
    requires WellFormed(t) && Consistent(t, resident)
    requires Fresh(t, v) && ResidencyKey(ImageHandle, v) !in resident
    ensures var a := GetImgView(t, access, layer, mip, v);
      WellFormed(a.texture) && Consistent(a.texture, ResidentAfter(resident, a.calls))
  {
    var key := ImageKey(access, layer, mip);
    if key in t.imgHandles {
      NewViewPreserves(t, ImgRef(key), resident);
    } else {
      var stored := NewImgHandle(v, key);
      var t1 := t.(imgHandles := t.imgHandles[key := stored]);
      assert t1 == Put(t, ImgRef(key), stored);
      forall other | Holds(t1, other)
        ensures At(t1, other) == if other == ImgRef(key) then stored else At(t, other)
      {
        AtPut(t, ImgRef(key), stored, other);
      }
      assert WellFormed(t1);
      assert Consistent(t1, resident);
      NewViewPreserves(t1, ImgRef(key), resident);
      var gone := Destroy(Move(stored).1);
      assert gone.calls + NewView(t1, ImgRef(key)).calls == NewView(t1, ImgRef(key)).calls;
    }
  }

  /**
    Distinct keys get distinct handles: after requests under two different
    samplers, with fresh driver names, the two views refer to different
    cache entries holding different driver handles.
  */
  lemma DistinctKeysGetDistinctHandles(t: Texture, c1: Option<Sampler>, c2: Option<Sampler>,
                                       v1: GlPtr, s1: GlPtr, v2: GlPtr, s2: GlPtr, resident: set<ResidencyKey>)
    requires WellFormed(t) && Consistent(t, resident)
    requires SamplerKey(t, c1) != SamplerKey(t, c2)
    requires Fresh(t, v1) && ResidencyKey(TextureHandle, v1) !in resident
    requires v1 != v2 && Fresh(t, v2) && ResidencyKey(TextureHandle, v2) !in resident
    ensures var first := GetTexView(t, c1, v1, s1);
      var second := GetTexView(first.texture, c2, v2, s2);
      && first.view.ref != second.view.ref
      && At(second.texture, first.view.ref).viewPtr != At(second.texture, second.view.ref).viewPtr
  {
    var first := GetTexView(t, c1, v1, s1);
    GetTexViewPreserves(t, c1, v1, s1, resident);
    var mid := ResidentAfter(resident, first.calls);
    assert Fresh(first.texture, v2) by {
      forall ref | Holds(first.texture, ref) ensures At(first.texture, ref).viewPtr != v2 {
        if ref != first.view.ref {
          assert Holds(t, ref);
          match ref
          case TexRef(s) =>
          case ImgRef(d) =>
        }
      }
    }
    assert ResidencyKey(TextureHandle, v2) !in mid by {
      if SamplerKey(t, c1) !in t.texHandles {
        assert first.calls == [MakeResident(TextureHandle, v1)] && first.calls[1..] == [];
        assert mid == ResidentAfter(ResidentStep(resident, first.calls[0]), []);
      } else {
        var h := t.texHandles[SamplerKey(t, c1)];
        assert Holds(t, TexRef(SamplerKey(t, c1)));
        ActivateResidency(h, resident);
        assert first.calls == Activate(h).calls;
        assert h.viewPtr != v2;
      }
    }
    GetTexViewPreserves(first.texture, c2, v2, s2, mid);
  }

  /**
    The same for image views: requests under two different image keys,
    with fresh driver names, give views of different cache entries holding
    different driver handles.
  */
  lemma DistinctImageKeysGetDistinctHandles(t: Texture, a1: ImageAccess, l1: Option<nat>, m1: nat,
                                            a2: ImageAccess, l2: Option<nat>, m2: nat,
                                            v1: GlPtr, v2: GlPtr, resident: set<ResidencyKey>)
    requires WellFormed(t) && Consistent(t, resident)
    requires ImageKey(a1, l1, m1) != ImageKey(a2, l2, m2)
    requires Fresh(t, v1) && ResidencyKey(ImageHandle, v1) !in resident
    requires v1 != v2 && Fresh(t, v2) && ResidencyKey(ImageHandle, v2) !in resident
    ensures var first := GetImgView(t, a1, l1, m1, v1);
      var second := GetImgView(first.texture, a2, l2, m2, v2);
      && first.view.ref != second.view.ref
      && At(second.texture, first.view.ref).viewPtr != At(second.texture, second.view.ref).viewPtr
  {
    var first := GetImgView(t, a1, l1, m1, v1);
    GetImgViewPreserves(t, a1, l1, m1, v1, resident);
    var mid := ResidentAfter(resident, first.calls);
    var key := ImageKey(a1, l1, m1);
    assert Fresh(first.texture, v2) by {
      forall ref | Holds(first.texture, ref) ensures At(first.texture, ref).viewPtr != v2 {
        if ref != first.view.ref {
          assert Holds(t, ref);
          match ref
          case TexRef(s) =>
          case ImgRef(d) =>
        }
      }
    }
    assert ResidencyKey(ImageHandle, v2) !in mid by {
      if key !in t.imgHandles {
        assert first.calls == [MakeResident(ImageHandle, v1)] && first.calls[1..] == [];
        assert mid == ResidentAfter(ResidentStep(resident, first.calls[0]), []);
      } else {
        var h := t.imgHandles[key];
        assert Holds(t, ImgRef(key));
        ActivateResidency(h, resident);
        assert first.calls == Activate(h).calls;
        assert h.viewPtr != v2;
      }
    }
    GetImgViewPreserves(first.texture, a2, l2, m2, v2, mid);
  }

  /**
    Residency over the destructor's trace: the object deletion changes no
    residency, then two caches drain their keys one after the other.
  */
  lemma DeleteThenDrain(resident: set<ResidencyKey>, body: seq<Event>, x: seq<Event>, y: seq<Event>,
                        kx: set<ResidencyKey>, ky: set<ResidencyKey>)
    requires |body| <= 1 && forall e <- body :: e.DeleteTexture?
    requires ResidentAfter(resident, x) == resident - kx
    requires ResidentAfter(resident - kx, y) == resident - kx - ky
    ensures ResidentAfter(resident, body + (x + y)) == resident - kx - ky
  {
    ResidentAfterAppend(resident, body, x + y);
    if body != [] {
      assert body[0].DeleteTexture? && body[1..] == [];
      assert ResidentAfter(resident, body) == ResidentAfter(ResidentStep(resident, body[0]), []);
    }
    ResidentAfterAppend(resident, x, y);
  }

  /** The resident set after a texture's destruction loses exactly the keys of its active handles. */
  lemma DestroyTextureResidency(t: Texture, texOrder: seq<Sampler>, imgOrder: seq<ImgHandleData>, texFirst: bool,
                                resident: set<ResidencyKey>)
    requires Enumerates(texOrder, t.texHandles.Keys) && Enumerates(imgOrder, t.imgHandles.Keys)
    ensures ResidentAfter(resident, DestroyTexture(t, texOrder, imgOrder, texFirst).calls)
      == resident - ActiveKeys(t.texHandles, texOrder) - ActiveKeys(t.imgHandles, imgOrder)
  {
    var calls := DestroyTexture(t, texOrder, imgOrder, texFirst).calls;
    var body := if t.glPtr != NullPtr then [DeleteTexture(t.glPtr)] else [];
    var tex := DestroyCalls(t.texHandles, texOrder);
    var img := DestroyCalls(t.imgHandles, imgOrder);
    var texKeys := ActiveKeys(t.texHandles, texOrder);
    var imgKeys := ActiveKeys(t.imgHandles, imgOrder);
    if texFirst {
      assert calls == body + (tex + img);
      DestroyAllResidency(t.texHandles, texOrder, resident);
      DestroyAllResidency(t.imgHandles, imgOrder, resident - texKeys);
      DeleteThenDrain(resident, body, tex, img, texKeys, imgKeys);
    } else {
      assert calls == body + (img + tex);
      DestroyAllResidency(t.imgHandles, imgOrder, resident);
      DestroyAllResidency(t.texHandles, texOrder, resident - imgKeys);
      DeleteThenDrain(resident, body, img, tex, imgKeys, texKeys);
      assert resident - imgKeys - texKeys == resident - texKeys - imgKeys;
    }
  }

  /** Destroying a texture leaves every handle it cached without users. */
  lemma DestroyTextureLeavesNoUsers(t: Texture, texOrder: seq<Sampler>, imgOrder: seq<ImgHandleData>, texFirst: bool)
    requires WellFormed(t)
    requires Enumerates(texOrder, t.texHandles.Keys) && Enumerates(imgOrder, t.imgHandles.Keys)
    ensures forall ref :: Holds(t, ref) ==> At(DestroyTexture(t, texOrder, imgOrder, texFirst).state, ref).activeCount == 0
  {
    var r := DestroyTexture(t, texOrder, imgOrder, texFirst);
    forall ref | Holds(t, ref) ensures Holds(r.state, ref) && At(r.state, ref).activeCount == 0 {
      match ref
      case TexRef(s) => assert !t.texHandles[s].skipDestructor;
      case ImgRef(d) => assert !t.imgHandles[d].skipDestructor;
    }
  }

  /**
    Destroying a texture drains residency: no handle it cached is resident
    afterwards, provided the driver was in step with the counts before.
  */
  lemma DestroyTextureDrainsResidency(t: Texture, texOrder: seq<Sampler>, imgOrder: seq<ImgHandleData>, texFirst: bool,
                                      resident: set<ResidencyKey>)
    requires WellFormed(t) && Consistent(t, resident)
    requires Enumerates(texOrder, t.texHandles.Keys) && Enumerates(imgOrder, t.imgHandles.Keys)
    ensures forall ref :: Holds(t, ref) ==>
      At(t, ref).Key() !in ResidentAfter(resident, DestroyTexture(t, texOrder, imgOrder, texFirst).calls)
  {
    DestroyTextureResidency(t, texOrder, imgOrder, texFirst, resident);
    var texKeys := ActiveKeys(t.texHandles, texOrder);
    var imgKeys := ActiveKeys(t.imgHandles, imgOrder);
    forall ref | Holds(t, ref) ensures At(t, ref).Key() !in resident - texKeys - imgKeys {
      match ref
      case TexRef(s) =>
        if t.texHandles[s].activeCount > 0 {
          assert t.texHandles[s].Key() in texKeys;
        }
      case ImgRef(d) =>
        if t.imgHandles[d].activeCount > 0 {
          assert t.imgHandles[d].Key() in imgKeys;
        }
    }
  }

  /** Destroying a texture leaves the residency of every handle it does not own alone. */
  lemma DestroyTextureSparesOtherHandles(t: Texture, texOrder: seq<Sampler>, imgOrder: seq<ImgHandleData>, texFirst: bool,
                                         resident: set<ResidencyKey>, k: ResidencyKey)
    requires Enumerates(texOrder, t.texHandles.Keys) && Enumerates(imgOrder, t.imgHandles.Keys)
    requires forall ref :: Holds(t, ref) ==> At(t, ref).Key() != k
    ensures k in ResidentAfter(resident, DestroyTexture(t, texOrder, imgOrder, texFirst).calls) <==> k in resident
  {
    DestroyTextureResidency(t, texOrder, imgOrder, texFirst, resident);
    NotOwnedNotDrained(t, texOrder, imgOrder, k);
  }

  /** A key none of the texture's handles has is drained by neither cache. */
  lemma NotOwnedNotDrained(t: Texture, texOrder: seq<Sampler>, imgOrder: seq<ImgHandleData>, k: ResidencyKey)
    requires forall ref :: Holds(t, ref) ==> At(t, ref).Key() != k
    ensures k !in ActiveKeys(t.texHandles, texOrder) && k !in ActiveKeys(t.imgHandles, imgOrder)
  {
    forall s <- t.texHandles ensures t.texHandles[s].Key() != k {
      assert Holds(t, TexRef(s));
    }
    forall d <- t.imgHandles ensures t.imgHandles[d].Key() != k {
      assert Holds(t, ImgRef(d));
    }
    NotAnActiveKey(t.texHandles, texOrder, k);
    NotAnActiveKey(t.imgHandles, imgOrder, k);
  }

  /** A key no cached handle has is not among the keys a destructor drains. */
  lemma NotAnActiveKey<K>(m: map<K, Handle>, order: seq<K>, k: ResidencyKey)
    requires forall key <- m :: m[key].Key() != k
    ensures k !in ActiveKeys(m, order)
  {
  }

  /**
    Destroying a moved-from texture does not delete the texture object,
    which now belongs to the move target, yet still drains the handles the
    source kept.
  */
  lemma MovedFromTextureKeepsObject(t: Texture, texOrder: seq<Sampler>, imgOrder: seq<ImgHandleData>, texFirst: bool)
    requires Enumerates(texOrder, t.texHandles.Keys) && Enumerates(imgOrder, t.imgHandles.Keys)
    ensures var src := MoveTexture(t).1;
      var r := DestroyTexture(src, texOrder, imgOrder, texFirst);
      && (forall e <- r.calls :: !e.DeleteTexture?)
      && (forall ref :: Holds(t, ref) && !At(t, ref).skipDestructor ==> At(r.state, ref).activeCount == 0)
  {
  }
}

=== FILE: wrappers.dfy ===
/** Optional values and error-carrying results shared by every module. */
module Wrappers {

  /** A value that may be absent, as `std::optional` in the engine. */
  datatype Option<+T> = None | Some(value: T) {

    /** The held value, or `default` when absent (`std::optional::value_or`). */
    function GetOr(default: T): T {
      match this
      case Some(v) => v
      case None => default
    }
  }

  /** Either a value or the reason the operation stopped. */
  datatype Result<+T, +E> = Ok(value: T) | Fail(error: E)
}
